=== FILE: README.md ===
# PakV3 extraction core in Dafny

This project models the data path of the PakV3 asset extractor. The extractor
reads the game's resource index (`TRUNK.DIR`) and looks up each record in the
data shards (`PackageNNN.DAT`). For each record it does four things:

- decodes the record's fixed header;
- inflates LZO payloads;
- sniffs a file extension from the content;
- writes the content to `<dump>\<shard ordinal>\<token as 16 hex digits>.<extension>`.

Every step is a pure function on byte sequences. Exceptions become `Result`
and `Option` values, so each failure the original raises becomes a named case.

The model is split into these modules:

- `Bytes` and `Seqs`: `BitConverter`'s little-endian reads and writes, on a
  little-endian host, and the `Take`/`Skip`/`StartsWith`/`Contains` operations
  the original uses.
- `Probes`: the model of an indexed byte test. `data[i] == c` can match, miss,
  or raise `IndexOutOfRangeException`. A chain of `&&` tests stops at the first
  miss and raises at the first out-of-range index before it.
- `Sniffer` (`JX3FileTypeRecognizer`): phase 1 splits text from binary, using
  the zero-byte scan and the byte-order-mark test. Phase 2 runs two ordered
  first-match tables of predicates, one for binary and one for text. Each
  predicate returns `Match | NoMatch | Fault`, and a fault counts as no match,
  as the `try { } catch { }` around each call does.
- `TrunkIndex` (`TrunkReader`): the declared count at 0x0C, and 20-byte locator
  records from 0x200 until a short read.
- `Shards` (`Package`, `PackageManager`):
  - shards are kept in ascending ordinal order and laid end to end as one
    address space;
  - `GetData` applies its range checks in order, with wrapping 64-bit sums;
  - it then walks the shards by cumulative size and delegates to the owning
    shard.
- `Records` (`PackageData`): the fixed little-endian header fields and the
  payload from byte 56.
- `Decompression` (`PackageDataDecompressor`): passthrough for every code but
  LZO, whose output must have the declared length.
- `HexNames`: `Token.ToString("X16")`.
- `Extraction` (`Program.Main`):
  - the per-record pipeline;
  - the loop, which stops at the end of the index and skips a record on any
    other fault;
  - the success counter.

Reads are functions of immutable values. So a shard's `Size` never changes
after construction, reads never modify a shard, and identical calls give
identical results, all without a separate proof.

## Model

| member | source | states |
|---|---|---|
| Bytes.LeOfReverseIsBe | PakV3/TrunkReader.cs:29 | reading the reversed bytes little-endian is reading the bytes big-endian |
| Bytes.Int32RoundTrip | PakV3/PackageData.cs:20-22 | the little-endian `Int32` read of a value's four bytes gives the value back, two's complement included |
| Bytes.Int64RoundTrip | PakV3/TrunkReader.cs:30 | the little-endian `Int64` read of a value's eight bytes gives the value back |
| Bytes.UInt64RoundTrip | PakV3/PackageData.cs:19 | the little-endian `UInt64` read of a value's eight bytes gives the value back |
| Bytes.Int32BytesRoundTrip | PakV3/TrunkReader.cs:31 | every four bytes are the encoding of the `Int32` they read as |
| Bytes.Int64BytesRoundTrip | PakV3/TrunkReader.cs:30 | every eight bytes are the encoding of the `Int64` they read as |
| Bytes.UInt64BytesRoundTrip | PakV3/TrunkReader.cs:29 | every eight bytes are the encoding of the `UInt64` they read as |
| Bytes.ReadUInt32 | PakV3/TrunkReader.cs:17 | four bytes read least-significant first: byte k carries weight 256^k |
| Bytes.ReadInt32 | PakV3/TrunkReader.cs:31 | the signed read is negative exactly when the top bit of the last byte is set, and agrees with the unsigned read modulo 2^32 |
| Bytes.ReadUInt64 | PakV3/TrunkReader.cs:29 | eight bytes read as the low word plus 2^32 times the high word |
| Bytes.ReadInt64 | PakV3/TrunkReader.cs:30 | the signed read is negative exactly when the top bit of the last byte is set, and agrees with the unsigned read modulo 2^64 |
| Bytes.AddInt64 | PakV3/Package.cs:30 | `start + length` wraps modulo 2^64 into the signed 64-bit range and equals the true sum when that is in range |
| Sniffer.SwitchEndian | PakV3/JX3FileTypeRecognizer.cs:35 | byte k of the result is byte 3 − k of the input |
| Sniffer.SwitchEndianInvolution | PakV3/JX3FileTypeRecognizer.cs:35 | swapping the byte order twice gives the value back |
| Sniffer.SwapBytes | PakV3/JX3FileTypeRecognizer.cs:35 | `SwitchEndian` reverses the four bytes of a word |
| Sniffer.SwitchEndianReadsBigEndian | PakV3/JX3FileTypeRecognizer.cs:128 | swapping the little-endian read of four bytes gives their big-endian read |
| Sniffer.IsPlainText | PakV3/JX3FileTypeRecognizer.cs:57-73 | a buffer without a zero byte is text in the default encoding; a buffer with one never is |
| PlainTextProperties.HeaderFaultCases | PakV3/JX3FileTypeRecognizer.cs:47-56 | the byte-order-mark test raises exactly on the buffers `00`, `00 00` and `00 00 FE` |
| PlainTextProperties.ZeroBufferTextIffBom | PakV3/JX3FileTypeRecognizer.cs:57-73 | a zero-containing buffer is text exactly when it starts with 2B 2F 76, EF BB BF, FF FE, FE FF or 00 00 FE FF |
| Sniffer.EncodingFromHeader | PakV3/JX3FileTypeRecognizer.cs:47-56 | an encoding is reported only when the buffer starts with its mark; with four bytes present the test never raises and reports none exactly when no mark is there |
| PlainTextProperties.ShortHeaderFault | PakV3/JX3FileTypeRecognizer.cs:47-56 | on a zero-containing buffer under four bytes the test raises exactly on `00`, `00 00` and `00 00 FE` |
| Sniffer.BomPrefixOfHeader | PakV3/JX3FileTypeRecognizer.cs:49-54 | a mark test on the first four bytes matches exactly when the buffer starts with the mark |
| Sniffer.GetExtension | PakV3/JX3FileTypeRecognizer.cs:303-333 | the call fails exactly when the byte-order-mark test raises; otherwise it names a non-empty extension; a buffer without zero bytes is classified on its default-encoding text, a zero-containing buffer that starts with a byte-order mark on its text decoded in that mark's encoding, and a binary buffer by the binary table |
| PlainTextProperties.EmptyBufferIsTxt | PakV3/JX3FileTypeRecognizer.cs:303-318 | the empty buffer is named "TXT", whatever the regular expressions answer |
| Sniffer.IsJson | PakV3/JX3FileTypeRecognizer.cs:238-248 | never raises; matches exactly when the trimmed text names no C++ marker and is enclosed in braces or in brackets |
| Sniffer.IsIni | PakV3/JX3FileTypeRecognizer.cs:250-253 | never raises; matches exactly when the text starts with "[" and the INI pattern matches |
| Sniffer.IsXml | PakV3/JX3FileTypeRecognizer.cs:255-260 | raises exactly when the text ends inside "<?xml" or "<!--"; otherwise matches on either prefix or on the XML pattern |
| Sniffer.IsCpp | PakV3/JX3FileTypeRecognizer.cs:262-268 | never raises; matches exactly when "#include" or "namespace" occurs somewhere in the text |
| Sniffer.IsLua | PakV3/JX3FileTypeRecognizer.cs:270-276 | never raises; matches exactly when "function" or "end" occurs somewhere in the text |
| Sniffer.Trim | PakV3/JX3FileTypeRecognizer.cs:240 | the trimmed string is the contiguous part of the input left after removing leading and trailing white space; it neither starts nor ends with white space |
| PlainTextProperties.CppMarkersAreNeverJson | PakV3/JX3FileTypeRecognizer.cs:238-242 | text whose trimmed form contains "#include" or "namespace" is never named "JSON", and is named "XML", "INI" or "CPP" |
| PlainTextProperties.BracedTextIsJson | PakV3/JX3FileTypeRecognizer.cs:243-244 | text trimmed to `{...}` without C++ markers is named "JSON" |
| SnifferProperties.PickBinaryIsFirstMatch | PakV3/JX3FileTypeRecognizer.cs:320-331 | the binary table picks `f` exactly when `f` returned true and every predicate before it in the initialiser did not |
| SnifferProperties.PickBinaryNone | PakV3/JX3FileTypeRecognizer.cs:320-331 | the binary table picks nothing, so "BIN" is returned, exactly when no predicate returned true |
| SnifferProperties.PickBinaryNotLater | PakV3/JX3FileTypeRecognizer.cs:79-100 | a matching predicate guarantees a pick no later than it in the table |
| SnifferProperties.BinaryRankInjective | PakV3/JX3FileTypeRecognizer.cs:79-100 | the binary table lists each format once |
| SnifferProperties.PickTextIsFirstMatch | PakV3/JX3FileTypeRecognizer.cs:309-318 | the text table picks `f` exactly when `f` returned true and every predicate before it did not |
| SnifferProperties.PickTextNone | PakV3/JX3FileTypeRecognizer.cs:309-318 | the text table picks nothing, so "TXT" is returned, exactly when no predicate returned true |
| SnifferProperties.PickTextNotLater | PakV3/JX3FileTypeRecognizer.cs:102-109 | a matching text predicate guarantees a pick no later than it |
| SnifferProperties.TextRankInjective | PakV3/JX3FileTypeRecognizer.cs:102-109 | the text table lists each format once |
| SnifferProperties.FrameSyncMask | PakV3/JX3FileTypeRecognizer.cs:130-137 | the three nested mask tests are together one test of the mask 0xFFFA0000 |
| SnifferProperties.FrameSyncBytes | PakV3/JX3FileTypeRecognizer.cs:128-137 | on four or more bytes, frame sync never raises and matches exactly when byte 0 is FF and byte 1 has the bits of FA set |
| SnifferProperties.TopBytes | PakV3/JX3FileTypeRecognizer.cs:128 | the mask test on the swapped word is a test on its first two bytes |
| Sniffer.FrameSync | PakV3/JX3FileTypeRecognizer.cs:128-137 | the frame-sync test raises exactly below four bytes |
| Sniffer.IsMp3 | PakV3/JX3FileTypeRecognizer.cs:113-141 | below 128 bytes it matches exactly on "ID3" and otherwise raises; at 128 and 129 bytes it raises exactly when the tag test reads past the start, and otherwise ignores the tag; from 130 bytes on it never raises and matches on "ID3", on the tag test, or on frame sync |
| SnifferProperties.Mp3LongBuffer | PakV3/JX3FileTypeRecognizer.cs:113-141 | from 130 bytes on, MP3 matches exactly on "ID3", on the ID3v1 tag, or when byte 0 is FF and byte 1 has the bits of FA set |
| SnifferProperties.StoredTagIsMissed | PakV3/JX3FileTypeRecognizer.cs:120-124 | a 200-byte buffer with "TAG" at the start of its last 128 bytes, as an ID3v1 tag stores it, and no other MP3 sign is not MP3, because the test reads "A" and "G" before that position |
| Sniffer.IsOgg | PakV3/JX3FileTypeRecognizer.cs:143-146 | matches exactly on a leading "OggS"; raises exactly when the buffer ends inside it |
| Sniffer.IsWav | PakV3/JX3FileTypeRecognizer.cs:148-152 | matches exactly on "RIFF" at 0 and "WAVE" at 8; raises exactly when the buffer ends inside "RIFF", or after it but before the end of "WAVE" while agreeing with it |
| Sniffer.IsFsb | PakV3/JX3FileTypeRecognizer.cs:154-157 | matches exactly on a leading "FSB5"; raises exactly when the buffer ends inside it |
| Sniffer.IsMp4 | PakV3/JX3FileTypeRecognizer.cs:163-166 | matches exactly on "ftyp" at offset 4; raises on every buffer up to four bytes, and on one that ends inside "ftyp" |
| Sniffer.IsAvi | PakV3/JX3FileTypeRecognizer.cs:168-172 | matches exactly on "RIFF" at 0 and "AVI " at 8; raises as the WAV test does |
| Sniffer.IsPng | PakV3/JX3FileTypeRecognizer.cs:178-181 | matches exactly on a leading 89 "PNG"; raises exactly when the buffer ends inside it |
| Sniffer.IsJpeg | PakV3/JX3FileTypeRecognizer.cs:183-187 | matches exactly on FF D8 at the start and FF D9 at the end, which may overlap; raises only on the empty buffer and on `FF` |
| Sniffer.IsTga | PakV3/JX3FileTypeRecognizer.cs:195-199 | matches exactly on the leading eight-byte TGA header; raises exactly when the buffer ends inside it |
| Sniffer.IsDds | PakV3/JX3FileTypeRecognizer.cs:201-204 | matches exactly on a leading "DDS "; raises exactly when the buffer ends inside it |
| Sniffer.IsPsd | PakV3/JX3FileTypeRecognizer.cs:206-209 | matches exactly on a leading "8BPS"; raises exactly when the buffer ends inside it |
| Sniffer.IsIff | PakV3/JX3FileTypeRecognizer.cs:211-215 | matches exactly on "FOR4" at 0 and "CIMG" at 8; raises as the WAV test does |
| Sniffer.IsCur | PakV3/JX3FileTypeRecognizer.cs:217-221 | matches exactly on a leading 00 00 02 00; raises exactly when the buffer ends inside it |
| Sniffer.IsAni | PakV3/JX3FileTypeRecognizer.cs:223-227 | matches exactly on "RIFF" at 0 and "ACON" at 8; raises as the WAV test does |
| Sniffer.IsIco | PakV3/JX3FileTypeRecognizer.cs:229-232 | matches exactly on a leading 00 00 01 00; raises exactly when the buffer ends inside it |
| Sniffer.IsRar | PakV3/JX3FileTypeRecognizer.cs:282-285 | matches exactly on a leading "Rar!"; raises exactly when the buffer ends inside it |
| Sniffer.IsZip | PakV3/JX3FileTypeRecognizer.cs:287-290 | matches exactly on a leading "PK" 03 04; raises exactly when the buffer ends inside it |
| SnifferProperties.BmpSpec | PakV3/JX3FileTypeRecognizer.cs:189-193 | BMP matches exactly when the buffer starts "BM" and the little-endian `Int32` at offset 2 equals its length; it raises exactly when the buffer ends inside "BM", or holds "BM" but fewer than six bytes |
| SnifferProperties.TtfSpec | PakV3/JX3FileTypeRecognizer.cs:296-299 | TTF never raises and matches exactly when bytes 264..267 are 5F 0F 3C F5 |
| SnifferProperties.TgaImpliesCur | PakV3/JX3FileTypeRecognizer.cs:195-221 | every TGA header also passes the CUR test |
| SnifferProperties.CurMagicIsBinary | PakV3/JX3FileTypeRecognizer.cs:57-73 | a buffer starting 00 00 02 00 takes the binary path |
| SnifferProperties.CurMagicIsNotMp3 | PakV3/JX3FileTypeRecognizer.cs:113-141 | a buffer starting 00 00 02 00 without an ID3v1 tag fails MP3, at any length |
| SnifferProperties.HeadFormatsMiss | PakV3/JX3FileTypeRecognizer.cs:81-88 | a buffer starting 00 00 02 00 fails ANI, AVI, BMP, DDS, FSB, ICO, IFF and JPEG |
| SnifferProperties.TailFormatsMiss | PakV3/JX3FileTypeRecognizer.cs:89-94 | such a buffer, without "ftyp" at offset 4, fails MP4, OGG, PNG, PSD and RAR |
| SnifferProperties.NothingBeforeTga | PakV3/JX3FileTypeRecognizer.cs:81-95 | on a buffer of any length starting 00 00 02 00, with no "ftyp" at offset 4 and no ID3v1 tag, no predicate before TGA matches |
| SnifferProperties.TgaPicked | PakV3/JX3FileTypeRecognizer.cs:95-96 | a buffer with the full TGA header and no ID3v1 tag is picked as TGA, ahead of CUR |
| SnifferProperties.TgaBeforeCur | PakV3/JX3FileTypeRecognizer.cs:217-221 | such a buffer is named "TGA" |
| SnifferProperties.TgaMissCurHit | PakV3/JX3FileTypeRecognizer.cs:195-221 | a buffer starting 00 00 02 00 that does not complete the eight-byte TGA header fails TGA, by a miss or by an exception, and passes CUR |
| SnifferProperties.CurPicked | PakV3/JX3FileTypeRecognizer.cs:95-96 | a buffer starting 00 00 02 00 that does not complete the TGA header, without "ftyp" at offset 4 and without an ID3v1 tag, is picked as CUR |
| SnifferProperties.CurWhenTgaIncomplete | PakV3/JX3FileTypeRecognizer.cs:217-221 | the same buffer is named "CUR" |
| SnifferProperties.IncompleteTgaIsCur | PakV3/JX3FileTypeRecognizer.cs:195-221 | the five-byte 00 00 02 00 00, where the TGA test raises, and 00 00 02 00 00 00 00 01, where it misses, are both named "CUR" |
| SnifferProperties.BinaryNamed | PakV3/JX3FileTypeRecognizer.cs:320-333 | a binary buffer is named after the first format that matched |
| SnifferProperties.Mp3Picked | PakV3/JX3FileTypeRecognizer.cs:81-89 | a buffer starting 00 00 02 00 that carries an ID3v1 tag is picked as MP3 |
| SnifferProperties.TaggedCurIsMp3 | PakV3/JX3FileTypeRecognizer.cs:113-125 | such a buffer, whether a TGA or a CUR, is named "MP3", because MP3 comes first in the table |
| SnifferProperties.Mp4Picked | PakV3/JX3FileTypeRecognizer.cs:81-90 | a buffer starting 00 00 02 00 with "ftyp" at offset 4 and no ID3v1 tag is picked as MP4 |
| SnifferProperties.FtypCurIsMp4 | PakV3/JX3FileTypeRecognizer.cs:163-166 | such a buffer is named "MP4", ahead of TGA and CUR |
| TrunkIndex.DecodeLocator | PakV3/TrunkReader.cs:27-32 | the token is the big-endian value of bytes 0..7 |
| TrunkProperties.DecodeEncode | PakV3/TrunkReader.cs:27-32 | decoding an encoded locator gives it back |
| TrunkProperties.EncodeDecode | PakV3/TrunkReader.cs:27-32 | every 20 bytes are the encoding of the locator they decode to |
| TrunkIndex.Open | PakV3/TrunkReader.cs:14-19 | opening fails exactly on streams shorter than 16 bytes; otherwise the reader stands at 0x200 and holds the little-endian value of bytes 0x0C..0x0F as `TotalLength` |
| TrunkIndex.ReadNext | PakV3/TrunkReader.cs:21-34 | a read yields a locator exactly when 20 bytes remain, and then consumes exactly those 20 bytes; otherwise it signals the end |
| TrunkIndex.Drain | PakV3/TrunkReader.cs:21-34 | a reader yields one locator per whole 20-byte record left before the end is signalled |
| TrunkIndex.Locators | PakV3/TrunkReader.cs:21-34 | an index file has one locator per whole record after 0x200, whose token is the big-endian value of its record's first eight bytes |
| TrunkProperties.DrainRecords | PakV3/TrunkReader.cs:21-34 | a reader yields exactly the whole records from its position on, in order |
| TrunkProperties.OpenYieldsLocators | PakV3/TrunkReader.cs:12-34 | the index yields (length − 0x200) / 20 locators, however large or small the declared `TotalLength` is |
| TrunkProperties.EndIsFinal | PakV3/TrunkReader.cs:24-26 | after the end is signalled, every later read signals it again |
| TrunkProperties.PartialRecordIgnored | PakV3/TrunkReader.cs:24-26 | a trailing partial record adds no locator |
| Shards.Read | PakV3/Package.cs:26-39 | a shard read succeeds exactly when start and length are in range, and then returns `length` bytes, the content slice when the end lies in the file; a start past the end is the start error, and otherwise an end past the file that the 64-bit sum does not wrap is the length error |
| Shards.InsertRejects | PakV3/PackageManager.cs:47 | adding to the sorted list fails exactly when the ordinal is already present |
| Shards.InsertAdds | PakV3/PackageManager.cs:47 | a successful add adds exactly the new shard |
| Shards.InsertAscending | PakV3/PackageManager.cs:13 | adding keeps the list in ascending ordinal order |
| Shards.Build | PakV3/PackageManager.cs:38-53 | a built manager has shards in ascending order, at least one of them, and a total equal to the sum of their sizes |
| ShardProperties.CollectRejects | PakV3/PackageManager.cs:42-49 | collecting the files fails exactly when two of them share an ordinal |
| ShardProperties.BuildSpec | PakV3/PackageManager.cs:42-52 | construction succeeds exactly when the ordinals are distinct, there is a shard and the total fits in 64 bits; it fails on a duplicate ordinal exactly when ordinals clash; a success holds the given shards, sorted, with the summed total |
| ShardProperties.OrderIndependent | PakV3/PackageManager.cs:42-52 | the manager does not depend on the order in which the directory lists the files |
| ShardProperties.TotalPermutation | PakV3/PackageManager.cs:52 | the total does not depend on the order of the shards |
| ShardProperties.AscendingUnique | PakV3/PackageManager.cs:13 | there is only one ascending arrangement of a given set of shards |
| Shards.Lookup | PakV3/PackageManager.cs:35 | looking up an ordinal succeeds exactly when a shard has it |
| ShardProperties.LookupFinds | PakV3/PackageManager.cs:35 | looking up a shard's ordinal finds that shard |
| Shards.Locate | PakV3/PackageManager.cs:22-33 | a negative `start` stops the walk at the first shard; a `start` at or past the total runs it to the end with the total and ordinal 0; any other stop is at a cumulative size not above `start` |
| ShardProperties.LocateOwner | PakV3/PackageManager.cs:22-33 | the walk stops at the shard whose byte range holds `start`, with that shard's first address |
| ShardProperties.LocatePastEnd | PakV3/PackageManager.cs:22-34 | when no shard holds `start`, the walk ends with the total and ordinal 0 |
| ShardProperties.SpaceSlice | PakV3/PackageManager.cs:22-33 | shard j occupies addresses prefix(j) up to prefix(j + 1) of the address space |
| Shards.GetData | PakV3/PackageManager.cs:16-21 | a start past the total is the start error; an end past the total is the length error |
| ShardProperties.GetDataWithinShard | PakV3/PackageManager.cs:16-36 | a run inside one shard returns exactly those bytes of the address space, with that shard's ordinal |
| ShardProperties.GetDataCrossing | PakV3/PackageManager.cs:35 | a run that crosses a shard boundary is rejected by the shard with the length error, not stitched |
| ShardProperties.GetDataAtEnd | PakV3/PackageManager.cs:22-35 | a read of length 0 or less at the very end goes to ordinal 0 at local offset 0: the empty read succeeds exactly when a shard 0 exists, and a negative length is the negative-length error there, or the missing-shard error |
| Records.Decode | PakV3/PackageData.cs:17-24 | decoding fails exactly below 40 bytes; the payload is everything from byte 56 on |
| RecordProperties.HeaderFields | PakV3/PackageData.cs:19-22 | the fields sit at bytes 0..7, 12..15, 28..31 and 36..39 of the header |
| RecordProperties.DecodeEncode | PakV3/PackageData.cs:17-24 | decoding an encoded record gives it back |
| RecordProperties.EncodeDecode | PakV3/PackageData.cs:17-24 | every record of 56 bytes or more is the encoding of what it decodes to, with its reserved bytes |
| RecordProperties.ShortRecordHasNoPayload | PakV3/PackageData.cs:23 | records of 40 to 56 bytes decode with an empty payload |
| Decompression.GetDecompressedData | PakV3/PackageDataDecompressor.cs:15-36 | every code but LZO passes the payload through; LZO succeeds exactly when the codec succeeds with the declared length, and the result is then the codec's output |
| Decompression.LzoDecompress | PakV3/PackageDataDecompressor.cs:29-36 | the codec's output is returned when it has the declared length; a codec failure and a wrong length are distinct errors |
| Decompression.PassthroughIgnoresLength | PakV3/PackageDataDecompressor.cs:17-23 | on passthrough the declared length plays no part and the length is the payload's |
| Decompression.LzoRoundTrip | PakV3/PackageDataDecompressor.cs:29-33 | a codec that inverts a compressor gives the original back |
| Decompression.LzoLengthChecked | PakV3/PackageDataDecompressor.cs:32-35 | output of the wrong length is the length error, even though the codec succeeded |
| HexNames.Hex | PakV3/Program.cs:39 | a value is written in exactly `n` upper-case hex digits |
| HexNames.TokenName | PakV3/Program.cs:39 | a name is exactly sixteen characters |
| HexNames.ParseHexOfHex | PakV3/Program.cs:39 | reading the digits back gives the value |
| HexNames.HexOfParseHex | PakV3/Program.cs:39 | every digit string is the rendering of its value |
| HexNames.TokenNamesDistinct | PakV3/Program.cs:39 | distinct tokens get distinct file names |
| Extraction.Process | PakV3/Program.cs:37-47 | a written file is named after the token, and its extension is the sniffer's verdict on its content |
| Extraction.CountDumped | PakV3/Program.cs:46-47 | the counter never exceeds the records tried, and equals it exactly when every record was written |
| ExtractionProperties.CountDumpedSplit | PakV3/Program.cs:47 | the counter over two runs of records is the sum of their counters |
| Extraction.Loop | PakV3/Program.cs:33-57 | the loop produces one outcome per locator the reader yields, each the pipeline applied to that locator, and counts the successes |
| Extraction.Extract | PakV3/Program.cs:24-57 | the index is opened before the shards; either failure ends the run; otherwise one outcome per index locator, in order |
| ExtractionProperties.StoredRecordDecodes | PakV3/Program.cs:40 | a record stored inside one shard is fetched with that shard's ordinal and decodes to itself |
| ExtractionProperties.StoredPlainRecordIsDumped | PakV3/Program.cs:38-46 | an uncompressed stored record is written in its shard's directory under its token's name with its payload; only the sniffer can still reject it |
| ExtractionProperties.StoredLzoRecordIsDumped | PakV3/Program.cs:40-46 | an LZO record the codec inflates to the declared length is written with the inflated content |
| ExtractionProperties.StoredLzoLengthMismatch | PakV3/Program.cs:41 | an LZO record whose output misses the declared length is skipped with the length error |
| ExtractionProperties.ShortRecordIsBadHeader | PakV3/Program.cs:40 | a fetched record below 40 bytes is skipped before decompression |
| ExtractionProperties.OffsetPastEndIsFetchFailure | PakV3/Program.cs:40 | a locator past the end of the shard space is skipped with the start error |

## Left out

- File and stream I/O are not modelled. That covers:
  - opening `TRUNK.DIR` and the shard files;
  - enumerating the directory;
  - `DirectoryInfo.Create` and `File.WriteAllBytes`;
  - the log file, `Console`, `Stopwatch` and the hard-coded paths.
- The index is a byte sequence and the shards are a list of (ordinal, content) entries. A failed write is not modelled, so a record that reaches the write always counts as dumped.
- The `Package(\d+)\.DAT` name match and `int.Parse` that give each shard its ordinal are not modelled: `Build` starts from (ordinal, content) entries.
- `Stream.Read` is taken to deliver `min(requested, remaining)` bytes in one call. This holds for the `FileStream`s used here, but the API does not promise it.
- Concurrency is not modelled: the `lock` in `Package.GetData`, and the static `strBuf` that `GetExtension` shares between calls. `strBuf` is treated as a local.
- `Dispose` and the finalizers are not modelled.
- `Encoding.GetString`, the white-space set of `String.Trim`, and the two compiled regular expressions are parameters (`TextEnv`). The .NET text decoders and the regular-expression engine are not modelled.
- The text predicates compare ordinally. `String.StartsWith(string)` is culture-sensitive in .NET, but culture rules are not modelled.
- The LZO1X decoder (`LZOCompressor.DecompressRaw`, the native `lzo.dll`) is a codec parameter with unconstrained output. `Unmanaged.cs` is not part of this model.
- Decompression.LzoCode: `PackageDataCompressType` is not part of this model. The value 3 assumes the enum's members are NONE, UNKNOWN1, UNKNOWN2, LZO with default numbering.
- Binary and text tables: .NET `Dictionary` enumeration is taken to follow insertion order. The runtime does this for a dictionary that is never modified, but does not promise it.
- Host byte order: every `BitConverter` call is modelled for a little-endian host.
- Dead code is not modelled: the `bomHeader` list and `PatternIndexOf` are never used.
- Shards.MaxArrayLength: the only allocation limit modelled is the largest byte array (0x7FFFFFC7). An out-of-memory failure on a smaller allocation is not modelled.
- Shards.Read requires the shard size to fit in `Int64`, as `FileInfo.Length` does.
- PlainTextProperties.EmptyBufferIsTxt assumes that decoding the empty buffer gives the empty string. That is a property of .NET's encodings, which are parameters here.
- Extraction.Loop: an `EndOfStreamException` raised from anywhere other than `ReadNextResource` (such as the external LZO library) would also end the loop. The model assumes only the index reader raises it.
- Extraction.Extract returns the outcomes. The per-record log line and the final `Console.ReadKey` are not modelled.
- SnifferProperties.NothingBeforeTga, TgaPicked, CurPicked: these hold only for buffers that fail the ID3v1 tag test (`TagTrailer`: at least 130 bytes, with "T", "A", "G" at 128, 129 and 130 bytes before the end). A tagged buffer is picked as MP3 first, as TaggedCurIsMp3 shows.
- Sniffer.TagTrailer: the ID3v1 test reads "T", "A", "G" at 128, 129 and 130 bytes before the end, which walks backwards from where an ID3v1 tag stores "TAG" (128, 127, 126 bytes before the end). The model follows the code as written; `SnifferProperties.StoredTagIsMissed` exhibits a stored tag that the test misses.

=== FILE: bytes.dfy ===
/** Bytes and the fixed-width integers that `BitConverter` reads from them.
    The host is taken to be little-endian, as every `BitConverter` call in the
    extractor assumes. C# integer widths are subset types of `int`; where the
    original relies on two's-complement wrap-around it is written out. */
module Bytes {

  /** An octet, kept as its unsigned value. */
  type byte = x: int | 0 <= x < 256

  type u32 = x: int | 0 <= x < 0x1_0000_0000
  type u64 = x: int | 0 <= x < 0x1_0000_0000_0000_0000
  type i32 = x: int | -0x8000_0000 <= x < 0x8000_0000
  type i64 = x: int | -0x8000_0000_0000_0000 <= x < 0x8000_0000_0000_0000

  /** 256^n: the number of distinct n-byte values. */
  function Pow256(n: nat): (p: nat)
    ensures p >= 1
  {
    if n == 0 then 1 else 256 * Pow256(n - 1)
  }

  /** Unsigned value of `s` read least-significant byte first. */
  function LeUint(s: seq<byte>): (v: nat)
    ensures v < Pow256(|s|)
  {
    if |s| == 0 then 0 else s[0] + 256 * LeUint(s[1..])
  }

  /** Unsigned value of `s` read most-significant byte first. */
  function BeUint(s: seq<byte>): (v: nat)
    ensures v < Pow256(|s|)
  {
    if |s| == 0 then 0 else 256 * BeUint(s[..|s| - 1]) + s[|s| - 1]
  }

  /** LINQ `Reverse`. */
  function Reverse<T>(s: seq<T>): (r: seq<T>)
    ensures |r| == |s|
    ensures forall i :: 0 <= i < |s| ==> r[i] == s[|s| - 1 - i]
  {
    if |s| == 0 then [] else [s[|s| - 1]] + Reverse(s[..|s| - 1])
  }

  /** Reading reversed bytes little-endian is reading the original big-endian. */
  lemma {:induction false} LeOfReverseIsBe(s: seq<byte>)
    ensures LeUint(Reverse(s)) == BeUint(s)
  {
    if |s| > 0 {
      var r := Reverse(s);
      assert r[1..] == Reverse(s[..|s| - 1]);
      LeOfReverseIsBe(s[..|s| - 1]);
    }
  }

  /** The `n`-byte little-endian encoding of `v` (the inverse of `LeUint`). */
  function LeBytes(v: nat, n: nat): (s: seq<byte>)
    requires v < Pow256(n)
    ensures |s| == n
  {
    if n == 0 then [] else [v % 256] + LeBytes(v / 256, n - 1)
  }

  lemma {:induction false} LeBytesRoundTrip(v: nat, n: nat)
    requires v < Pow256(n)
    ensures LeUint(LeBytes(v, n)) == v
  {
    if n > 0 {
      var e := LeBytes(v, n);
      assert e[0] == v % 256 && e[1..] == LeBytes(v / 256, n - 1);
      LeBytesRoundTrip(v / 256, n - 1);
    }
  }

  lemma {:induction false} LeUintRoundTrip(s: seq<byte>)
    ensures LeBytes(LeUint(s), |s|) == s
  {
    if |s| > 0 {
      var v := LeUint(s);
      assert v % 256 == s[0] && v / 256 == LeUint(s[1..]);
      LeUintRoundTrip(s[1..]);
    }
  }

  /** Two's-complement reading of a 32-bit pattern (`BitConverter.ToInt32`). */
  function AsInt32(u: u32): (x: i32)
    ensures x >= 0 <==> u < 0x8000_0000
    ensures (x - u) % 0x1_0000_0000 == 0
  {
    if u < 0x8000_0000 then u else u - 0x1_0000_0000
  }

  /** The 32-bit pattern of a signed value. */
  function AsUint32(x: i32): (u: u32)
    ensures (x - u) % 0x1_0000_0000 == 0
  {
    if x >= 0 then x else x + 0x1_0000_0000
  }

  /** Two's-complement reading of a 64-bit pattern (`BitConverter.ToInt64`). */
  function AsInt64(u: u64): (x: i64)
    ensures x >= 0 <==> u < 0x8000_0000_0000_0000
    ensures (x - u) % 0x1_0000_0000_0000_0000 == 0
  {
    if u < 0x8000_0000_0000_0000 then u else u - 0x1_0000_0000_0000_0000
  }

  /** The 64-bit pattern of a signed value. */
  function AsUint64(x: i64): (u: u64)
    ensures (x - u) % 0x1_0000_0000_0000_0000 == 0
  {
    if x >= 0 then x else x + 0x1_0000_0000_0000_0000
  }

  /** Unchecked 64-bit addition, as C# performs `start + length` on `Int64`. */
  function AddInt64(a: i64, b: i64): (r: i64)
    ensures -0x8000_0000_0000_0000 <= a + b < 0x8000_0000_0000_0000 ==> r == a + b
    ensures (r - (a + b)) % 0x1_0000_0000_0000_0000 == 0
  {
    AsInt64((a + b) % 0x1_0000_0000_0000_0000)
  }

  /** Four bytes read least-significant first, written out. */
  lemma LeUintOfFour(b: seq<byte>)
    requires |b| == 4
    ensures LeUint(b) == b[0] + 0x100 * (b[1] as int) + 0x1_0000 * (b[2] as int) + 0x100_0000 * (b[3] as int)
  {
    assert LeUint(b[3..]) == b[3] by {
      assert b[3..][1..] == [];
    }
    assert b[1..][1..] == b[2..] && b[2..][1..] == b[3..];
  }

  /** Reading a concatenation: the second part's value is scaled past the first. */
  lemma {:induction false} LeUintSplit(a: seq<byte>, c: seq<byte>)
    ensures LeUint(a + c) == LeUint(a) + Pow256(|a|) * LeUint(c)
  {
    if |a| > 0 {
      var t := a[1..];
      assert (a + c)[0] == a[0] && (a + c)[1..] == t + c;
      LeUintSplit(t, c);
      var y: int, p: int, w: int := LeUint(t), Pow256(|t|), LeUint(c);
      assert LeUint(a + c) == a[0] + 256 * (y + p * w);
      assert LeUint(a) == a[0] + 256 * y && Pow256(|a|) == 256 * p;
      ShiftByte(a[0], y, p, w);
    } else {
      assert a + c == c;
    }
  }

  /** The arithmetic step of `LeUintSplit`, kept apart from the sequences so
      the nonlinear facts are proved in a small context. */
  lemma ShiftByte(b: int, y: int, p: int, w: int)
    ensures b + 256 * (y + p * w) == (b + 256 * y) + (256 * p) * w
  {
  }

  /** `BitConverter.ToUInt32` of four bytes: the first byte is the least
      significant. */
  function ReadUInt32(b: seq<byte>): (v: u32)
    requires |b| == 4
    ensures v == b[0] + 0x100 * (b[1] as int) + 0x1_0000 * (b[2] as int) + 0x100_0000 * (b[3] as int)
  {
    LeUintOfFour(b);
    LeUint(b)
  }

  /** `BitConverter.ToInt32` of four bytes: negative exactly when the top bit
      of the last byte is set. */
  function ReadInt32(b: seq<byte>): (x: i32)
    requires |b| == 4
    ensures x < 0 <==> b[3] >= 0x80
    ensures x % 0x1_0000_0000 == ReadUInt32(b)
  {
    LeUintOfFour(b);
    AsInt32(LeUint(b))
  }

  /** `BitConverter.ToUInt64` of eight bytes: the low word, then the high word. */
  function ReadUInt64(b: seq<byte>): (v: u64)
    requires |b| == 8
    ensures v == ReadUInt32(b[..4]) + 0x1_0000_0000 * ReadUInt32(b[4..])
  {
    LeUintSplit(b[..4], b[4..]);
    assert b[..4] + b[4..] == b;
    LeUint(b)
  }

  /** `BitConverter.ToInt64` of eight bytes: negative exactly when the top bit
      of the last byte is set. */
  function ReadInt64(b: seq<byte>): (x: i64)
    requires |b| == 8
    ensures x < 0 <==> b[7] >= 0x80
    ensures x % 0x1_0000_0000_0000_0000 == ReadUInt64(b)
  {
    var v := ReadUInt64(b);
    assert v >= 0x8000_0000_0000_0000 <==> b[7] >= 0x80 by {
      assert b[4..][3] == b[7];
    }
    AsInt64(v)
  }

  /** `BitConverter.GetBytes` of a 32-bit signed value. */
  function Int32Bytes(x: i32): (b: seq<byte>)
    ensures |b| == 4
  {
    LeBytes(AsUint32(x), 4)
  }

  /** `BitConverter.GetBytes` of a 64-bit signed value. */
  function Int64Bytes(x: i64): (b: seq<byte>)
    ensures |b| == 8
  {
    LeBytes(AsUint64(x), 8)
  }

  /** `BitConverter.GetBytes` of a 64-bit unsigned value. */
  function UInt64Bytes(x: u64): (b: seq<byte>)
    ensures |b| == 8
  {
    LeBytes(x, 8)
  }

  lemma Int32RoundTrip(x: i32)
    ensures ReadInt32(Int32Bytes(x)) == x
  {
    LeBytesRoundTrip(AsUint32(x), 4);
  }

  lemma Int64RoundTrip(x: i64)
    ensures ReadInt64(Int64Bytes(x)) == x
  {
    LeBytesRoundTrip(AsUint64(x), 8);
  }

  lemma UInt64RoundTrip(x: u64)
    ensures ReadUInt64(UInt64Bytes(x)) == x
  {
    LeBytesRoundTrip(x, 8);
  }

  lemma Int32BytesRoundTrip(b: seq<byte>)
    requires |b| == 4
    ensures Int32Bytes(ReadInt32(b)) == b
  {
    LeUintRoundTrip(b);
  }

  lemma Int64BytesRoundTrip(b: seq<byte>)
    requires |b| == 8
    ensures Int64Bytes(ReadInt64(b)) == b
  {
    LeUintRoundTrip(b);
  }

  lemma UInt64BytesRoundTrip(b: seq<byte>)
    requires |b| == 8
    ensures UInt64Bytes(ReadUInt64(b)) == b
  {
    LeUintRoundTrip(b);
  }
}

=== FILE: decompress.dfy ===
/** `PackageDataDecompressor`: the payload is returned as it is unless the
    header names LZO, in which case the native LZO1X decoder runs once and
    its output must have exactly the declared length. */
module Decompression {
  import opened Results
  import opened Bytes

  /** The code of `PackageDataCompressType.LZO`, the fourth member after
      NONE, UNKNOWN1 and UNKNOWN2. */
  const LzoCode: i32 := 3

  /** The native decoder (`LZOCompressor.DecompressRaw`) on a payload and the
      length it is told to expect; `None` when it raises. */
  type LzoCodec = (seq<byte>, i32) -> Option<seq<byte>>

  datatype DecompressFault =
    | LzoFailed       // the decoder itself raised
    | LengthMismatch  // InvalidDataException: output length differs from the header

  /** `GetDecompressedData`: every code other than LZO, declared or not,
      falls into the passthrough branch. */
  function GetDecompressedData(lzo: LzoCodec, compressType: i32, data: seq<byte>, decompressedLength: i32)
    : (r: Result<seq<byte>, DecompressFault>)
    ensures compressType != LzoCode ==> r == Ok(data)
    ensures compressType == LzoCode ==>
      (r.Ok? <==> lzo(data, decompressedLength).Some? && |lzo(data, decompressedLength).value| == decompressedLength)
    ensures r.Ok? && compressType == LzoCode ==>
      |r.value| == decompressedLength && r.value == lzo(data, decompressedLength).value
  {
    if compressType == LzoCode then LzoDecompress(lzo, data, decompressedLength)
    else Ok(data)
  }

  /** The LZO branch: the decoder's output, when it has the declared length;
      a decoder failure and a length mismatch are told apart. */
  function LzoDecompress(lzo: LzoCodec, data: seq<byte>, decompressedLength: i32)
    : (r: Result<seq<byte>, DecompressFault>)
    ensures r.Ok? <==> lzo(data, decompressedLength).Some? && |lzo(data, decompressedLength).value| == decompressedLength
    ensures r.Ok? ==> r.value == lzo(data, decompressedLength).value
    ensures r == Err(LzoFailed) <==> lzo(data, decompressedLength).None?
  {
    match lzo(data, decompressedLength)
    case None => Err(LzoFailed)
    case Some(buf) => if |buf| == decompressedLength then Ok(buf) else Err(LengthMismatch)
  }

  /** On passthrough the declared length plays no part. */
  lemma PassthroughIgnoresLength(lzo: LzoCodec, t: i32, data: seq<byte>, n1: i32, n2: i32)
    requires t != LzoCode
    ensures GetDecompressedData(lzo, t, data, n1) == GetDecompressedData(lzo, t, data, n2)
    ensures |GetDecompressedData(lzo, t, data, n1).value| == |data|
  {
  }

  /** With a codec that inverts a compressor, a payload compressed from `x`
      and declared with `x`'s length comes back as `x`. */
  lemma LzoRoundTrip(lzo: LzoCodec, compress: seq<byte> -> seq<byte>, x: seq<byte>)
    requires |x| < 0x8000_0000
    requires lzo(compress(x), |x|) == Some(x)
    ensures GetDecompressedData(lzo, LzoCode, compress(x), |x|) == Ok(x)
  {
  }

  /** A declared length that the decoder's output does not meet is an error
      even when the decoder succeeded. */
  lemma LzoLengthChecked(lzo: LzoCodec, data: seq<byte>, n: i32)
    requires lzo(data, n).Some? && |lzo(data, n).value| != n
    ensures GetDecompressedData(lzo, LzoCode, data, n) == Err(LengthMismatch)
  {
  }
}

=== FILE: extraction.dfy ===
/** The extraction loop of `Program.Main`: open the index, open the shards,
    then for every locator fetch the record, decode its header, decompress
    the payload, sniff an extension and write the file. The end of the index
    ends the loop; any other failure is logged and the loop goes on with the
    next locator. */
module Extraction {
  import opened Results
  import opened Bytes
  import opened Sniffer
  import opened Shards
  import opened Records
  import opened Decompression
  import opened TrunkIndex
  import opened HexNames
  import opened TrunkProperties

  /** What the library calls the loop relies on do. */
  datatype Env = Env(text: TextEnv, lzo: LzoCodec)

  /** Why one record was skipped. */
  datatype Failure =
    | FetchFailed(fault: ReadFault)            // `GetData` raised
    | BadHeader                                // `PackageData` raised on a short record
    | DecompressFailed(why: DecompressFault)   // LZO failure or length mismatch
    | Unclassified                             // `GetExtension` raised

  /** One file written: `<dump>\<package>\<name>.<extension>` holding `content`. */
  datatype Dump = Dump(package: i32, name: string, extension: string, content: seq<byte>)

  /** The body of the `try` for one locator, step by step in source order. */
  function Process(env: Env, m: Manager, loc: Locator): (r: Result<Dump, Failure>)
    requires Valid(m)
    ensures r.Ok? ==> r.value.name == TokenName(loc.token)
    ensures r.Ok? ==> GetExtension(env.text, r.value.content) == Some(r.value.extension)
  {
    match GetData(m, loc.offset, loc.length)
    case Err(e) => Err(FetchFailed(e))
    case Ok((raw, package)) =>
      match Decode(raw)
      case None => Err(BadHeader)
      case Some(rec) =>
        match GetDecompressedData(env.lzo, rec.compressType, rec.rawData, rec.decompressedLength)
        case Err(e) => Err(DecompressFailed(e))
        case Ok(content) =>
          match GetExtension(env.text, content)
          case None => Err(Unclassified)
          case Some(ext) => Ok(Dump(package, TokenName(loc.token), ext, content))
  }

  /** The success counter `i`: records whose file was written. */
  function CountDumped(os: seq<Result<Dump, Failure>>): (n: nat)
    ensures n <= |os|
    ensures n == |os| <==> forall k :: 0 <= k < |os| ==> os[k].Ok?
  {
    if |os| == 0 then 0
    else CountDumped(os[..|os| - 1]) + (if os[|os| - 1].Ok? then 1 else 0)
  }

  /** Failures before the loop starts, which end the program. */
  datatype Fatal =
    | IndexTooShort                 // the `TrunkReader` constructor raised
    | NoPackages(why: BuildFault)   // the `PackageManager` constructor raised

  /** What a run produced: one outcome per locator, and the counter. */
  datatype Session = Session(outcomes: seq<Result<Dump, Failure>>, dumped: nat)

  /** `Main`: the index reader is built first, then the shard manager; then
      the loop runs until the index signals its end. */
  method Extract(env: Env, index: seq<byte>, files: seq<Entry>) returns (r: Result<Session, Fatal>)
    ensures Open(index).None? ==> r == Err(IndexTooShort)
    ensures Open(index).Some? && Build(files).Err? ==> r == Err(NoPackages(Build(files).error))
    ensures r.Ok? ==> Open(index).Some? && Build(files).Ok?
    ensures r.Ok? ==>
      var ls := Locators(index);
      |r.value.outcomes| == |ls| &&
      (forall k :: 0 <= k < |ls| ==> r.value.outcomes[k] == Process(env, Build(files).value, ls[k])) &&
      r.value.dumped == CountDumped(r.value.outcomes)
  {
    var start := Open(index);
    if start.None? {
      return Err(IndexTooShort);
    }
    var built := Build(files);
    if built.Err? {
      return Err(NoPackages(built.error));
    }
    OpenYieldsLocators(index);
    var m := built.value;
    var run := Loop(loc requires Valid(m) => Process(env, m, loc), start.value);
    return Ok(run);
  }

  /** The `while (true)` loop: one outcome per locator the reader yields,
      until it signals the end. */
  method Loop(process: Locator --> Result<Dump, Failure>, reader: Reader) returns (run: Session)
    requires forall l :: process.requires(l)
    ensures |run.outcomes| == |Drain(reader)|
    ensures forall k :: 0 <= k < |run.outcomes| ==> run.outcomes[k] == process(Drain(reader)[k])
    ensures run.dumped == CountDumped(run.outcomes)
  {
    var ls := Drain(reader);
    var r := reader;
    var outcomes: seq<Result<Dump, Failure>> := [];
    var dumped := 0;
    while true
      invariant |outcomes| <= |ls| && Drain(r) == ls[|outcomes|..]
      invariant forall k :: 0 <= k < |outcomes| ==> outcomes[k] == process(ls[k])
      invariant dumped == CountDumped(outcomes)
      decreases Available(r)
    {
      var step := ReadNext(r);
      if step.End? {
        break;
      }
      DrainStep(r, ls, |outcomes|);
      var o := process(step.loc);
      Appended(outcomes, o);
      outcomes := outcomes + [o];
      if o.Ok? {
        dumped := dumped + 1;
      }
      r := step.rest;
    }
    assert Drain(r) == [];
    return Session(outcomes, dumped);
  }

  /** One successful read consumes the next locator of the sequence. */
  lemma DrainStep(r: Reader, ls: seq<Locator>, n: nat)
    requires n <= |ls| && Drain(r) == ls[n..] && ReadNext(r).Next?
    ensures n < |ls| && ls[n] == ReadNext(r).loc && Drain(ReadNext(r).rest) == ls[n + 1..]
  {
    assert Drain(r) == [ReadNext(r).loc] + Drain(ReadNext(r).rest);
    assert ls[n..][1..] == ls[n + 1..];
  }

  /** Appending one outcome keeps the earlier ones and counts the new one. */
  lemma Appended(os: seq<Result<Dump, Failure>>, o: Result<Dump, Failure>)
    ensures (os + [o])[..|os|] == os && (os + [o])[|os|] == o
    ensures CountDumped(os + [o]) == CountDumped(os) + (if o.Ok? then 1 else 0)
  {
    assert (os + [o])[..|os|] == os;
  }
}

=== FILE: extraction_props.dfy ===
/** End-to-end properties of one iteration of the extraction loop: a record
    stored inside one shard comes out as the file it encodes. */
module ExtractionProperties {
  import opened Results
  import opened Bytes
  import opened Sniffer
  import opened Shards
  import opened ShardProperties
  import opened Records
  import opened RecordProperties
  import opened Decompression
  import opened TrunkIndex
  import opened HexNames
  import opened Extraction

  /** The locator addresses the encoding of `rec` inside shard `j`. */
  predicate Stored(m: Manager, loc: Locator, j: nat, rec: Record, reserved: seq<byte>)
    requires Valid(m)
  {
    && j < |m.entries|
    && |reserved| == ReservedLength
    && 0 <= loc.length <= MaxArrayLength
    && Prefix(m.entries, j) <= loc.offset
    && loc.offset + loc.length <= Prefix(m.entries, j + 1)
    && loc.offset + loc.length <= |Space(m.entries)|
    && Space(m.entries)[loc.offset..loc.offset + loc.length] == Encode(rec, reserved)
  }

  /** The fetch-and-decode half: a stored record is found in its shard and
      its header decodes to `rec`. */
  lemma StoredRecordDecodes(m: Manager, loc: Locator, j: nat, rec: Record, reserved: seq<byte>)
    requires Valid(m) && Stored(m, loc, j, rec, reserved)
    ensures GetData(m, loc.offset, loc.length) == Ok((Encode(rec, reserved), m.entries[j].ordinal))
    ensures Decode(Encode(rec, reserved)) == Some(rec)
  {
    assert GetData(m, loc.offset, loc.length) == Ok((Encode(rec, reserved), m.entries[j].ordinal)) by {
      GetDataWithinShard(m, loc.offset, loc.length, j);
    }
    DecodeEncode(rec, reserved);
  }

  /** An uncompressed stored record is written, under its token's name, in
      the directory of the shard holding it, with its payload as content;
      only the classifier can still turn it down. */
  lemma StoredPlainRecordIsDumped(env: Env, m: Manager, loc: Locator, j: nat, rec: Record, reserved: seq<byte>)
    requires Valid(m) && Stored(m, loc, j, rec, reserved)
    requires rec.compressType != LzoCode
    ensures GetExtension(env.text, rec.rawData).None? ==> Process(env, m, loc) == Err(Unclassified)
    ensures GetExtension(env.text, rec.rawData).Some? ==>
      Process(env, m, loc) ==
        Ok(Dump(m.entries[j].ordinal, TokenName(loc.token), GetExtension(env.text, rec.rawData).value, rec.rawData))
  {
    StoredRecordDecodes(m, loc, j, rec, reserved);
  }

  /** An LZO record whose payload the codec inflates to `x`, declared with
      `x`'s length, is written with content `x`. */
  lemma StoredLzoRecordIsDumped(env: Env, m: Manager, loc: Locator, j: nat, rec: Record, reserved: seq<byte>, x: seq<byte>)
    requires Valid(m) && Stored(m, loc, j, rec, reserved)
    requires rec.compressType == LzoCode && rec.decompressedLength == |x|
    requires env.lzo(rec.rawData, rec.decompressedLength) == Some(x)
    requires GetExtension(env.text, x).Some?
    ensures Process(env, m, loc) ==
      Ok(Dump(m.entries[j].ordinal, TokenName(loc.token), GetExtension(env.text, x).value, x))
  {
    StoredRecordDecodes(m, loc, j, rec, reserved);
  }

  /** An LZO record whose declared length the codec's output misses is
      skipped, whatever its content. */
  lemma StoredLzoLengthMismatch(env: Env, m: Manager, loc: Locator, j: nat, rec: Record, reserved: seq<byte>)
    requires Valid(m) && Stored(m, loc, j, rec, reserved)
    requires rec.compressType == LzoCode
    requires env.lzo(rec.rawData, rec.decompressedLength).Some?
    requires |env.lzo(rec.rawData, rec.decompressedLength).value| != rec.decompressedLength
    ensures Process(env, m, loc) == Err(DecompressFailed(LengthMismatch))
  {
    StoredRecordDecodes(m, loc, j, rec, reserved);
  }

  /** A fetched record shorter than the fixed header part is skipped before
      decompression is tried. */
  lemma ShortRecordIsBadHeader(env: Env, m: Manager, loc: Locator)
    requires Valid(m)
    requires GetData(m, loc.offset, loc.length).Ok? && |GetData(m, loc.offset, loc.length).value.0| < MinRecordLength
    ensures Process(env, m, loc) == Err(BadHeader)
  {
  }

  /** A locator whose offset lies past the end of the shard space is skipped
      with the fetch error. */
  lemma OffsetPastEndIsFetchFailure(env: Env, m: Manager, loc: Locator)
    requires Valid(m) && loc.offset > m.total
    ensures Process(env, m, loc) == Err(FetchFailed(StartOutOfRange))
  {
  }

  /** The counter counts exactly the outcomes that wrote a file: one more
      file written is one more on the counter. */
  lemma {:induction false} CountDumpedSplit(a: seq<Result<Dump, Failure>>, b: seq<Result<Dump, Failure>>)
    ensures CountDumped(a + b) == CountDumped(a) + CountDumped(b)
    decreases |b|
  {
    if |b| > 0 {
      var b' := b[..|b| - 1];
      assert (a + b)[..|a + b| - 1] == a + b';
      CountDumpedSplit(a, b');
    } else {
      assert a + b == a;
    }
  }
}

=== FILE: hex.dfy ===
/** Output file names: `Token.ToString("X16")`, the token as exactly sixteen
    upper-case hexadecimal digits with leading zeros. */
module HexNames {
  import opened Bytes

  function Pow16(n: nat): (p: nat)
    ensures p >= 1
  {
    if n == 0 then 1 else 16 * Pow16(n - 1)
  }

  lemma {:induction false} Pow16Add(a: nat, b: nat)
    ensures Pow16(a + b) == Pow16(a) * Pow16(b)
  {
    if a > 0 {
      Pow16Add(a - 1, b);
    }
  }

  /** Sixteen hexadecimal digits hold exactly the 64-bit values. */
  lemma Pow16Of16()
    ensures Pow16(16) == 0x1_0000_0000_0000_0000
  {
    assert Pow16(4) == 0x1_0000;
    Pow16Add(4, 4);
    Pow16Add(8, 8);
  }

  /** The digit for a value below 16: '0'..'9', then 'A'..'F'. */
  function DigitChar(d: nat): (c: char)
    requires d < 16
    ensures IsHexDigit(c)
  {
    if d < 10 then ('0' as int + d) as char else ('A' as int + d - 10) as char
  }

  predicate IsHexDigit(c: char)
  {
    '0' <= c <= '9' || 'A' <= c <= 'F'
  }

  function DigitValue(c: char): (d: nat)
    requires IsHexDigit(c)
    ensures d < 16
  {
    if c <= '9' then c as int - '0' as int else c as int - 'A' as int + 10
  }

  /** `v` in exactly `n` digits, most significant first. */
  function Hex(v: nat, n: nat): (s: string)
    requires v < Pow16(n)
    ensures |s| == n
    ensures forall i :: 0 <= i < n ==> IsHexDigit(s[i])
  {
    if n == 0 then [] else Hex(v / 16, n - 1) + [DigitChar(v % 16)]
  }

  /** The value of a string of digits, most significant first. */
  function ParseHex(s: string): (v: nat)
    requires forall i :: 0 <= i < |s| ==> IsHexDigit(s[i])
    ensures v < Pow16(|s|)
  {
    if |s| == 0 then 0 else 16 * ParseHex(s[..|s| - 1]) + DigitValue(s[|s| - 1])
  }

  /** The name of a record's output file. */
  function TokenName(token: u64): (s: string)
    ensures |s| == 16
  {
    Pow16Of16();
    Hex(token, 16)
  }

  lemma DigitRoundTrip(d: nat, c: char)
    requires d < 16 && IsHexDigit(c)
    ensures DigitValue(DigitChar(d)) == d
    ensures DigitChar(DigitValue(c)) == c
  {
  }

  /** Reading the digits back gives the value. */
  lemma {:induction false} ParseHexOfHex(v: nat, n: nat)
    requires v < Pow16(n)
    ensures ParseHex(Hex(v, n)) == v
  {
    if n > 0 {
      var s := Hex(v, n);
      assert s[..n - 1] == Hex(v / 16, n - 1);
      DigitRoundTrip(v % 16, '0');
      ParseHexOfHex(v / 16, n - 1);
    }
  }

  /** Writing a string of digits' value in as many digits gives the string. */
  lemma {:induction false} HexOfParseHex(s: string)
    requires forall i :: 0 <= i < |s| ==> IsHexDigit(s[i])
    ensures Hex(ParseHex(s), |s|) == s
  {
    if |s| > 0 {
      var p := s[..|s| - 1];
      var d := DigitValue(s[|s| - 1]);
      HexOfParseHex(p);
      DigitRoundTrip(d, s[|s| - 1]);
      var v := ParseHex(s);
      assert v / 16 == ParseHex(p) && v % 16 == d;
      assert s == p + [s[|s| - 1]];
    }
  }

  /** Distinct tokens get distinct names. */
  lemma TokenNamesDistinct(a: u64, b: u64)
    requires a != b
    ensures TokenName(a) != TokenName(b)
  {
    Pow16Of16();
    ParseHexOfHex(a, 16);
    ParseHexOfHex(b, 16);
  }
}

=== FILE: plain_text.dfy ===
/** Properties of phase 1 of the content sniffer (text or binary) and of the
    text table. */
module PlainTextProperties {
  import opened Results
  import opened Bytes
  import opened Seqs
  import opened Probes
  import opened Sniffer

  /** The byte-order-mark test is unguarded, so it raises on exactly three
      zero-containing buffers: those that stop inside the UTF-32 mark before
      any earlier mark could decide. Every other buffer gets an answer. */
  lemma HeaderFaultCases(d: seq<byte>)
    ensures IsPlainText(d) == HeaderFault <==> d == [0] || d == [0, 0] || d == [0, 0, 0xFE]
  {
    if |d| < 4 && 0 in d {
      ShortHeaderFault(d);
    }
  }

  /** Below four bytes the header is the whole buffer, and a mark test raises
      when the buffer stops inside the mark while agreeing with it. */
  lemma ShortHeaderFault(d: seq<byte>)
    requires |d| < 4 && 0 in d
    ensures EncodingFromHeader(d) == BomFault <==> d == [0] || d == [0, 0] || d == [0, 0, 0xFE]
  {
    assert Take(d, 4) == d;
    RunFault(Utf7Bom, 0, d);
    RunFault(Utf8Bom, 0, d);
    RunFault(UnicodeBom, 0, d);
    RunFault(BigEndianUnicodeBom, 0, d);
    RunFault(Utf32Bom, 0, d);
    RunMatches(UnicodeBom, 0, d);
    RunMatches(BigEndianUnicodeBom, 0, d);
  }

  /** A buffer with a zero byte is read as text exactly when it starts with a
      byte-order mark (as long as the header test does not raise). */
  lemma ZeroBufferTextIffBom(d: seq<byte>)
    requires 0 in d && IsPlainText(d) != HeaderFault
    ensures IsPlainText(d).PlainText? <==> HasBomPrefix(d)
  {
    var bom := Take(d, 4);
    BomPrefixOfHeader(d, Utf7Bom);
    BomPrefixOfHeader(d, Utf8Bom);
    BomPrefixOfHeader(d, UnicodeBom);
    BomPrefixOfHeader(d, BigEndianUnicodeBom);
    BomPrefixOfHeader(d, Utf32Bom);
  }

  /** An empty file decodes to the empty string, which no text predicate
      accepts (the XML test raises on it), so it is named ".TXT". */
  lemma EmptyBufferIsTxt(env: TextEnv)
    requires env.getString(Default, []) == ""
    ensures GetExtension(env, []) == Some("TXT")
  {
    assert !Contains("", "#include") && !Contains("", "namespace");
    assert !Contains("", "function") && !Contains("", "end");
    assert Check(Run("<?xml", 0), "") == Fault;
  }

  /** An occurrence inside a slice is an occurrence in the whole. */
  lemma ContainsInSlice<T>(s: seq<T>, r: seq<T>, a: nat, p: seq<T>)
    requires OccursAt(s, r, a) && Contains(r, p)
    ensures Contains(s, p)
  {
    var i: nat :| OccursAt(r, p, i);
    forall j | 0 <= j < |p|
      ensures s[a + i + j] == p[j]
    {
      assert s[a..a + |r|][i + j] == r[i..i + |p|][j];
    }
    assert s[a + i..a + i + |p|] == p;
    assert OccursAt(s, p, a + i);
  }

  /** Text whose trimmed form mentions `#include` or `namespace` is never
      called JSON, and never falls through to LUA: the C++ test catches it
      if XML and INI do not. */
  lemma CppMarkersAreNeverJson(env: TextEnv, s: string)
    requires ContainsAny(Trim(env.isWhiteSpace, s), CppContent)
    ensures ClassifyText(env, s) in {"XML", "INI", "CPP"}
  {
    var t := Trim(env.isWhiteSpace, s);
    var k :| 0 <= k < |CppContent| && Contains(t, CppContent[k]);
    ContainsInSlice(s, t, LeadingWhite(env.isWhiteSpace, s), CppContent[k]);
    assert IsCpp(s) == Match;
  }

  /** JSON is tried first: a trimmed `{...}` without C++ markers is JSON even
      when it also mentions Lua keywords or would satisfy the XML test. */
  lemma BracedTextIsJson(env: TextEnv, s: string)
    requires var t := Trim(env.isWhiteSpace, s);
      !ContainsAny(t, CppContent) && StartsWith(t, "{") && EndsWith(t, "}")
    ensures ClassifyText(env, s) == "JSON"
  {
  }
}

=== FILE: probes.dfy ===
/** Three-valued signature tests. A signature predicate in the recognizer
    either returns true, returns false, or raises (almost always an
    out-of-range index). Short-circuit `&&` and `||` decide which indices are
    touched, so they decide whether a predicate raises; this module keeps that
    order explicit. */
module Probes {
  /** Outcome of one predicate call: true, false, or an exception. */
  datatype Verdict = Match | NoMatch | Fault

  function FromBool(b: bool): Verdict
  {
    if b then Match else NoMatch
  }

  /** C# `a && b`: `b` is only evaluated when `a` is true. */
  function And(a: Verdict, b: Verdict): Verdict
  {
    if a == Match then b else a
  }

  /** C# `a || b`: `b` is only evaluated when `a` is false. */
  function Or(a: Verdict, b: Verdict): Verdict
  {
    if a == NoMatch then b else a
  }

  /** An index into a buffer: `data[i]`, or `data[data.Length - k]`. */
  datatype Anchor = Head(i: nat) | Tail(k: nat)

  /** One comparison `data[at] == want`. */
  datatype Probe<T> = Probe(at: Anchor, want: T)

  function IndexOf(a: Anchor, len: nat): int
  {
    match a
    case Head(i) => i
    case Tail(k) => len - k
  }

  /** The probe's index lies inside `d`, so reading it does not raise. */
  predicate InBounds<T>(p: Probe<T>, d: seq<T>)
  {
    0 <= IndexOf(p.at, |d|) < |d|
  }

  /** The probe's index lies inside `d` and holds the wanted value. */
  predicate Hits<T(==)>(p: Probe<T>, d: seq<T>)
  {
    InBounds(p, d) && d[IndexOf(p.at, |d|)] == p.want
  }

  /** `data[a0] == w0 && data[a1] == w1 && ...`, evaluated left to right.
      `CheckMatch` and `CheckFault` state what it decides. */
  function Check<T(==)>(ps: seq<Probe<T>>, d: seq<T>): Verdict
  {
    if |ps| == 0 then Match
    else if !InBounds(ps[0], d) then Fault
    else if d[IndexOf(ps[0].at, |d|)] != ps[0].want then NoMatch
    else Check(ps[1..], d)
  }

  /** The conjunction is true exactly when every probe hits. */
  lemma {:induction false} CheckMatch<T>(ps: seq<Probe<T>>, d: seq<T>)
    ensures Check(ps, d) == Match <==> forall j :: 0 <= j < |ps| ==> Hits(ps[j], d)
  {
    if |ps| > 0 {
      CheckMatch(ps[1..], d);
      assert forall j :: 1 <= j < |ps| ==> ps[j] == ps[1..][j - 1];
    }
  }

  /** It raises exactly when the first probe that does not hit is out of range. */
  lemma {:induction false} CheckFault<T>(ps: seq<Probe<T>>, d: seq<T>)
    ensures Check(ps, d) == Fault <==>
      exists j :: 0 <= j < |ps| && !InBounds(ps[j], d) && forall i :: 0 <= i < j ==> Hits(ps[i], d)
  {
    if |ps| > 0 {
      CheckFault(ps[1..], d);
      assert forall j :: 1 <= j < |ps| ==> ps[j] == ps[1..][j - 1];
      if Check(ps, d) == Fault {
        if InBounds(ps[0], d) {
          var k := FirstOut(ps[1..], d);
          assert !InBounds(ps[1..][k], d);
          assert 0 <= k + 1 < |ps| && !InBounds(ps[k + 1], d);
        }
      } else if InBounds(ps[0], d) && Hits(ps[0], d) {
        forall j | 1 <= j < |ps| && !InBounds(ps[j], d)
          ensures exists i :: 0 <= i < j && !Hits(ps[i], d)
        {
          assert !(exists m :: 0 <= m < |ps[1..]| && !InBounds(ps[1..][m], d) &&
                     forall i :: 0 <= i < m ==> Hits(ps[1..][i], d));
          assert !InBounds(ps[1..][j - 1], d);
          var i :| 0 <= i < j - 1 && !Hits(ps[1..][i], d);
          assert !Hits(ps[i + 1], d);
        }
      }
    }
  }

  /** Two groups joined by `&&`: the second is only evaluated when the first
      is true. */
  lemma {:induction false} CheckAppend<T>(a: seq<Probe<T>>, b: seq<Probe<T>>, d: seq<T>)
    ensures Check(a + b, d) == And(Check(a, d), Check(b, d))
  {
    if |a| > 0 {
      assert (a + b)[0] == a[0] && (a + b)[1..] == a[1..] + b;
      CheckAppend(a[1..], b, d);
    } else {
      assert a + b == b;
    }
  }

  /** Index of the first probe that does not hit (`|ps|` when all hit). */
  function FirstOut<T(==)>(ps: seq<Probe<T>>, d: seq<T>): (j: nat)
    ensures j <= |ps|
    ensures forall i :: 0 <= i < j ==> Hits(ps[i], d)
    ensures j < |ps| ==> !Hits(ps[j], d)
  {
    if |ps| == 0 then 0
    else if !Hits(ps[0], d) then 0
    else 1 + FirstOut(ps[1..], d)
  }

  /** Consecutive probes `data[from + j] == ws[j]`, as the recognizer spells out
      a magic number byte by byte. */
  function Run<T>(ws: seq<T>, from: nat): (ps: seq<Probe<T>>)
    ensures |ps| == |ws|
    ensures forall j :: 0 <= j < |ws| ==> ps[j] == Probe(Head(from + j), ws[j])
  {
    seq(|ws|, j requires 0 <= j < |ws| => Probe(Head(from + j), ws[j]))
  }

  /** A run of probes matches exactly when the bytes are there. */
  lemma RunMatches<T>(ws: seq<T>, from: nat, d: seq<T>)
    requires |ws| > 0
    ensures Check(Run(ws, from), d) == Match <==>
      from + |ws| <= |d| && d[from..from + |ws|] == ws
  {
    if Check(Run(ws, from), d) == Match {
      RunMatchHasBytes(ws, from, d);
    }
    if from + |ws| <= |d| && d[from..from + |ws|] == ws {
      BytesMatchRun(ws, from, d);
    }
  }

  lemma RunMatchHasBytes<T>(ws: seq<T>, from: nat, d: seq<T>)
    requires |ws| > 0 && Check(Run(ws, from), d) == Match
    ensures from + |ws| <= |d| && d[from..from + |ws|] == ws
  {
    var ps := Run(ws, from);
    CheckMatch(ps, d);
    RunHit(ws, from, d, |ws| - 1);
    forall j | 0 <= j < |ws|
      ensures d[from + j] == ws[j]
    {
      RunHit(ws, from, d, j);
    }
  }

  /** One hit of a run, read back as a byte of the buffer. */
  lemma RunHit<T>(ws: seq<T>, from: nat, d: seq<T>, j: nat)
    requires j < |ws| && Hits(Run(ws, from)[j], d)
    ensures from + j < |d| && d[from + j] == ws[j]
  {
    assert Run(ws, from)[j] == Probe(Head(from + j), ws[j]);
  }

  lemma BytesMatchRun<T>(ws: seq<T>, from: nat, d: seq<T>)
    requires from + |ws| <= |d| && d[from..from + |ws|] == ws
    ensures Check(Run(ws, from), d) == Match
  {
    var ps := Run(ws, from);
    var w := d[from..from + |ws|];
    forall j | 0 <= j < |ps|
      ensures Hits(ps[j], d)
    {
      assert w[j] == d[from + j];
    }
    CheckMatch(ps, d);
  }

  /** A probe that misses rules out a match. */
  lemma MissAt<T>(ps: seq<Probe<T>>, d: seq<T>, j: nat)
    requires j < |ps| && !Hits(ps[j], d)
    ensures Check(ps, d) != Match
  {
    CheckMatch(ps, d);
  }

  /** A run of probes never raises on a buffer that reaches past its last index. */
  lemma RunInBounds<T>(ws: seq<T>, from: nat, d: seq<T>)
    requires from + |ws| <= |d|
    ensures Check(Run(ws, from), d) != Fault
  {
    CheckFault(Run(ws, from), d);
  }

  /** A run of probes raises exactly when the buffer stops inside the run
      while agreeing with it up to that point. */
  lemma {:induction false} RunFault<T>(ws: seq<T>, from: nat, d: seq<T>)
    requires from <= |d|
    ensures Check(Run(ws, from), d) == Fault <==>
      |d| < from + |ws| && d[from..] == ws[..|d| - from]
  {
    if |ws| > 0 {
      var ps := Run(ws, from);
      assert ps[1..] == Run(ws[1..], from + 1);
      if from < |d| {
        if d[from] == ws[0] {
          RunFault(ws[1..], from + 1, d);
          if |d| < from + |ws| {
            assert d[from..] == [d[from]] + d[from + 1..];
            assert ws[..|d| - from] == [ws[0]] + ws[1..][..|d| - (from + 1)];
          }
        } else if |d| < from + |ws| {
          assert d[from..][0] != ws[..|d| - from][0];
        }
      }
    }
  }
}

=== FILE: record_props.dfy ===
/** Round trips of the record header. */
module RecordProperties {
  import opened Results
  import opened Bytes
  import opened Records

  /** Where each field lands in an encoded header. */
  lemma HeaderFields(rec: Record, reserved: seq<byte>)
    requires |reserved| == ReservedLength
    ensures var h := Header(rec, reserved);
      h[..8] == UInt64Bytes(rec.unknown) && h[12..16] == Int32Bytes(rec.decompressedLength) &&
      h[28..32] == Int32Bytes(rec.rawLength) && h[36..40] == Int32Bytes(rec.compressType)
  {
    var h := Header(rec, reserved);
    var a := UInt64Bytes(rec.unknown);
    var b := Int32Bytes(rec.decompressedLength);
    var c := Int32Bytes(rec.rawLength);
    var d := Int32Bytes(rec.compressType);
    assert h == a + reserved[..4] + b + reserved[4..16] + c + reserved[16..20] + d + reserved[20..];
    assert forall k :: 0 <= k < 8 ==> h[k] == a[k];
    assert forall k :: 0 <= k < 4 ==> h[12 + k] == b[k] && h[28 + k] == c[k] && h[36 + k] == d[k];
  }

  /** Decoding an encoded record gives the record back, whatever the
      reserved bytes hold. */
  lemma DecodeEncode(rec: Record, reserved: seq<byte>)
    requires |reserved| == ReservedLength
    ensures Decode(Encode(rec, reserved)) == Some(rec)
  {
    var data := Encode(rec, reserved);
    var h := Header(rec, reserved);
    HeaderFields(rec, reserved);
    assert data[..8] == h[..8] && data[12..16] == h[12..16];
    assert data[28..32] == h[28..32] && data[36..40] == h[36..40];
    assert data[HeaderLength..] == rec.rawData;
    UInt64RoundTrip(rec.unknown);
    Int32RoundTrip(rec.decompressedLength);
    Int32RoundTrip(rec.rawLength);
    Int32RoundTrip(rec.compressType);
  }

  /** Every record of at least a full header is the encoding of what it
      decodes to, with its own reserved bytes. */
  lemma EncodeDecode(data: seq<byte>)
    requires |data| >= HeaderLength
    ensures Decode(data).Some? && Encode(Decode(data).value, Reserved(data)) == data
  {
    var rec := Decode(data).value;
    var reserved := Reserved(data);
    UInt64BytesRoundTrip(data[..8]);
    Int32BytesRoundTrip(data[12..16]);
    Int32BytesRoundTrip(data[28..32]);
    Int32BytesRoundTrip(data[36..40]);
    var h := Header(rec, reserved);
    HeaderFields(rec, reserved);
    assert reserved[..4] == data[8..12] && reserved[4..16] == data[16..28];
    assert reserved[16..20] == data[32..36] && reserved[20..] == data[40..56];
    assert h == data[..HeaderLength];
    assert data == data[..HeaderLength] + data[HeaderLength..];
  }

  /** A record of 40 to 56 bytes decodes, with an empty payload. */
  lemma ShortRecordHasNoPayload(data: seq<byte>)
    requires MinRecordLength <= |data| <= HeaderLength
    ensures Decode(data).Some? && Decode(data).value.rawData == []
  {
  }
}

=== FILE: records.dfy ===
/** The header of a stored record (`PackageData`). A record fetched from the
    address space starts with a 56-byte header, of which four fields are
    read; the rest of the header is never looked at. */
module Records {
  import opened Results
  import opened Bytes
  import opened Seqs

  /** Offset of the payload: everything after the header. */
  const HeaderLength: nat := 56

  /** Shortest record whose four fields can all be read. */
  const MinRecordLength: nat := 40

  /** The bytes of the header that no field reads. */
  const ReservedLength: nat := 36

  datatype Record = Record(
    unknown: u64,             // bytes 0..8
    rawLength: i32,           // bytes 28..32, never used to bound the payload
    compressType: i32,        // bytes 36..40, kept as the raw code
    decompressedLength: i32,  // bytes 12..16
    rawData: seq<byte>)       // bytes 56..

  /** The `PackageData` constructor. Each field is a `BitConverter` read of a
      `Skip(k).Take(n)` slice, which raises when fewer than `n` bytes are
      left; the furthest slice ends at 40, so a shorter record fails
      (`None`). The payload is `Skip(56)`, which is empty for a record of 56
      bytes or fewer and is not cut to `rawLength`. */
  function Decode(data: seq<byte>): (r: Option<Record>)
    ensures r.None? <==> |data| < MinRecordLength
    ensures r.Some? ==> r.value.rawData == Skip(data, HeaderLength)
  {
    if |data| < MinRecordLength then None
    else Some(Record(
      ReadUInt64(data[..8]),
      ReadInt32(data[28..32]),
      ReadInt32(data[36..40]),
      ReadInt32(data[12..16]),
      Skip(data, HeaderLength)))
  }

  /** A record's bytes, with `reserved` filling the header bytes that no field
      reads (8..12, 16..28, 32..36 and 40..56, in that order). */
  function Encode(rec: Record, reserved: seq<byte>): (data: seq<byte>)
    requires |reserved| == ReservedLength
    ensures |data| == HeaderLength + |rec.rawData|
  {
    Header(rec, reserved) + rec.rawData
  }

  function Header(rec: Record, reserved: seq<byte>): (h: seq<byte>)
    requires |reserved| == ReservedLength
    ensures |h| == HeaderLength
  {
    UInt64Bytes(rec.unknown) + reserved[..4] + Int32Bytes(rec.decompressedLength)
      + reserved[4..16] + Int32Bytes(rec.rawLength) + reserved[16..20]
      + Int32Bytes(rec.compressType) + reserved[20..]
  }

  /** The reserved bytes of a header, in the order `Encode` takes them. */
  function Reserved(data: seq<byte>): (r: seq<byte>)
    requires |data| >= HeaderLength
    ensures |r| == ReservedLength
  {
    data[8..12] + data[16..28] + data[32..36] + data[40..56]
  }
}

=== FILE: results.dfy ===
/** Failure-carrying return types. Every exception the original code can raise
    on a modelled path becomes an `Err` (or a `None`) here, so that each
    operation is total and its error cases are part of its contract. */
module Results {

  /** A value that may be absent; also used for "this foreign call raised". */
  datatype Option<+T> = None | Some(value: T)

  /** Either a value or the reason it could not be produced. */
  datatype Result<+T, +E> = Ok(value: T) | Err(error: E)
}

=== FILE: seqs.dfy ===
/** Sequence helpers with the semantics of the .NET library calls the
    extractor uses: LINQ `Skip`/`Take` (which clamp instead of failing) and
    ordinal `StartsWith`/`EndsWith`/`Contains` on strings. */
module Seqs {

  /** `xs.Skip(n)`: everything after the first `n` elements; empty past the end. */
  function Skip<T>(xs: seq<T>, n: nat): (r: seq<T>)
    ensures |r| == if n <= |xs| then |xs| - n else 0
    ensures forall i :: 0 <= i < |r| ==> r[i] == xs[n + i]
  {
    if n <= |xs| then xs[n..] else []
  }

  /** `xs.Take(n)`: the first `n` elements, or all of them when there are fewer. */
  function Take<T>(xs: seq<T>, n: nat): (r: seq<T>)
    ensures |r| == if n <= |xs| then n else |xs|
    ensures r <= xs
  {
    if n <= |xs| then xs[..n] else xs
  }

  /** `s.StartsWith(p)` under ordinal comparison. */
  predicate StartsWith<T(==)>(s: seq<T>, p: seq<T>)
  {
    |p| <= |s| && s[..|p|] == p
  }

  /** `s.EndsWith(p)` under ordinal comparison. */
  predicate EndsWith<T(==)>(s: seq<T>, p: seq<T>)
  {
    |p| <= |s| && s[|s| - |p|..] == p
  }

  /** `p` occurs in `s` starting at index `i`. */
  predicate OccursAt<T(==)>(s: seq<T>, p: seq<T>, i: nat)
  {
    i + |p| <= |s| && s[i..i + |p|] == p
  }

  /** `s.Contains(p)`, written as the left-to-right scan that performs it;
      the contract is the positional definition of an occurrence. */
  function Contains<T(==)>(s: seq<T>, p: seq<T>): (b: bool)
    ensures b <==> exists i: nat :: OccursAt(s, p, i)
    decreases |s|
  {
    if StartsWith(s, p) then
      assert OccursAt(s, p, 0);
      true
    else if |s| == 0 then
      assert forall i: nat :: !OccursAt(s, p, i);
      false
    else
      var b := Contains(s[1..], p);
      assert b ==> exists i: nat :: OccursAt(s, p, i) by {
        if b {
          var i: nat :| OccursAt(s[1..], p, i);
          assert s[i + 1..i + 1 + |p|] == s[1..][i..i + |p|];
          assert OccursAt(s, p, i + 1);
        }
      }
      assert (exists i: nat :: OccursAt(s, p, i)) ==> b by {
        if exists i: nat :: OccursAt(s, p, i) {
          var i: nat :| OccursAt(s, p, i);
          assert i != 0;
          assert s[1..][i - 1..i - 1 + |p|] == s[i..i + |p|];
          assert OccursAt(s[1..], p, i - 1);
        }
      }
      b
  }

  /** `items.Any(i => s.Contains(i))`. */
  predicate ContainsAny<T(==)>(s: seq<T>, items: seq<seq<T>>)
  {
    exists k :: 0 <= k < |items| && Contains(s, items[k])
  }
}

=== FILE: shard_props.dfy ===
/** Properties of the shard manager: what the constructor accepts and builds,
    and which bytes `GetData` returns. */
module ShardProperties {
  import opened Results
  import opened Bytes
  import opened Shards

  // ---------------------------------------------------------------------------
  // Construction

  /** An ascending list holds no ordinal twice. */
  lemma {:induction false} AscendingDistinct(es: seq<Entry>)
    requires Ascending(es)
    ensures Distinct(multiset(es))
  {
    if |es| > 0 {
      AscendingDistinct(es[1..]);
      HeadBelowRest(es);
      assert es == [es[0]] + es[1..];
      assert multiset(es) == multiset{es[0]} + multiset(es[1..]);
      assert es[0] !in multiset(es[1..]);
    }
  }

  /** The constructor's loop fails exactly when the files repeat an ordinal,
      among themselves or with what is already in the list. */
  lemma {:induction false} CollectRejects(es: seq<Entry>, files: seq<Entry>)
    requires Ascending(es)
    ensures Collect(es, files).Ok? <==> Distinct(multiset(es) + multiset(files))
    decreases |files|
  {
    if |files| == 0 {
      AscendingDistinct(es);
    } else {
      var e := files[0];
      assert files == [e] + files[1..];
      assert multiset(files) == multiset{e} + multiset(files[1..]);
      InsertRejects(es, e);
      match Insert(es, e)
      case None =>
        Clash(multiset(es), multiset(files), e);
      case Some(t) =>
        InsertAscending(es, e);
        InsertAdds(es, e);
        CollectRejects(t, files[1..]);
        assert multiset(t) + multiset(files[1..]) == multiset(es) + multiset(files);
    }
  }

  /** An entry whose ordinal is already in the list breaks distinctness. */
  lemma Clash(have: multiset<Entry>, more: multiset<Entry>, e: Entry)
    requires e in more && exists x :: x in have && x.ordinal == e.ordinal
    ensures !Distinct(have + more)
  {
    var x :| x in have && x.ordinal == e.ordinal;
    if x == e {
      assert (have + more)[e] >= 2;
    }
  }

  /** The address space of two lists laid end to end. */
  lemma {:induction false} SpaceAppend(a: seq<Entry>, b: seq<Entry>)
    ensures Space(a + b) == Space(a) + Space(b)
    ensures Total(a + b) == Total(a) + Total(b)
  {
    if |a| > 0 {
      SpaceAppend(a[1..], b);
      assert (a + b)[0] == a[0];
      assert (a + b)[1..] == a[1..] + b;
    } else {
      assert a + b == b;
    }
  }

  /** Taking entry `i` out of a list removes it from the bag and its size
      from the total. */
  lemma RemoveAt(b: seq<Entry>, i: nat)
    requires i < |b|
    ensures multiset(b[..i] + b[i + 1..]) == multiset(b) - multiset{b[i]}
    ensures Total(b[..i] + b[i + 1..]) + |b[i].shard.content| == Total(b)
  {
    var x, y := b[..i], b[i + 1..];
    assert b == x + [b[i]] + y;
    assert multiset(b) == multiset(x) + multiset{b[i]} + multiset(y);
    SpaceAppend(x + [b[i]], y);
    SpaceAppend(x, [b[i]]);
    SpaceAppend(x, y);
    assert Total([b[i]]) == |b[i].shard.content| by { assert [b[i]][1..] == []; }
  }

  /** The total does not depend on the order of the shards. */
  lemma {:induction false} TotalPermutation(a: seq<Entry>, b: seq<Entry>)
    requires multiset(a) == multiset(b)
    ensures Total(a) == Total(b)
    decreases |a|
  {
    if |a| > 0 {
      assert a[0] in multiset(b);
      var i :| 0 <= i < |b| && b[i] == a[0];
      RemoveAt(b, i);
      assert a == [a[0]] + a[1..];
      assert multiset(a) == multiset{a[0]} + multiset(a[1..]);
      TotalPermutation(a[1..], b[..i] + b[i + 1..]);
    } else {
      assert |multiset(b)| == 0;
    }
  }

  lemma MultisetCons(s: seq<Entry>)
    requires |s| > 0
    ensures s[0] in s
    ensures multiset(s[1..]) == multiset(s) - multiset{s[0]}
  {
    assert s == [s[0]] + s[1..];
  }

  /** Two ascending lists with the same entries are the same list. */
  lemma {:induction false} AscendingUnique(a: seq<Entry>, b: seq<Entry>)
    requires Ascending(a) && Ascending(b) && multiset(a) == multiset(b)
    ensures a == b
    decreases |a|
  {
    assert |a| == |multiset(a)| == |b|;
    if |a| > 0 {
      MultisetCons(a);
      MultisetCons(b);
      assert a[0] in multiset(b) && b[0] in multiset(a);
      SameHead(a, b);
      AscendingUnique(a[1..], b[1..]);
    }
  }

  lemma SameHead(a: seq<Entry>, b: seq<Entry>)
    requires Ascending(a) && Ascending(b) && |a| > 0 && |b| > 0
    requires a[0] in b && b[0] in a
    ensures a[0] == b[0]
  {
    HeadBelowRest(a);
    HeadBelowRest(b);
    assert a == [a[0]] + a[1..] && b == [b[0]] + b[1..];
  }

  /** The loop over the files, started from an empty list. */
  lemma CollectFromEmpty(files: seq<Entry>)
    ensures Collect([], files).Ok? <==> Distinct(multiset(files))
    ensures Collect([], files).Ok? ==>
      var es := Collect([], files).value;
      Ascending(es) && multiset(es) == multiset(files) && Total(es) == Total(files) && |es| == |files|
  {
    var none: seq<Entry> := [];
    CollectRejects(none, files);
    assert multiset(none) + multiset(files) == multiset(files);
    if Collect(none, files).Ok? {
      var es := Collect(none, files).value;
      CollectAscending(none, files);
      TotalPermutation(es, files);
      assert |es| == |multiset(es)|;
    }
  }

  /** The constructor fails on a repeated ordinal, then on an empty
      directory, then on a total that overflows; otherwise the manager holds
      exactly the given files in ascending ordinal order and their total. */
  lemma BuildSpec(files: seq<Entry>)
    ensures Build(files).Ok? <==> Distinct(multiset(files)) && |files| > 0 && Total(files) <= Int64Max
    ensures Build(files).Err? ==> (Build(files).error.DuplicateOrdinal? <==> !Distinct(multiset(files)))
    ensures Distinct(multiset(files)) && |files| == 0 ==> Build(files) == Err(NoShards)
    ensures Distinct(multiset(files)) && |files| > 0 && Total(files) > Int64Max ==>
      Build(files) == Err(SizeOverflow)
    ensures Build(files).Ok? ==>
      Ascending(Build(files).value.entries) &&
      multiset(Build(files).value.entries) == multiset(files) &&
      Build(files).value.total == Total(files)
  {
    CollectFromEmpty(files);
  }

  /** The directory order does not matter: the same files in any order build
      the same manager. */
  lemma OrderIndependent(f1: seq<Entry>, f2: seq<Entry>)
    requires multiset(f1) == multiset(f2)
    ensures Build(f1).Ok? <==> Build(f2).Ok?
    ensures Build(f1).Ok? ==> Build(f1) == Build(f2)
  {
    BuildSpec(f1);
    BuildSpec(f2);
    TotalPermutation(f1, f2);
    assert |f1| == |f2| by { assert |multiset(f1)| == |multiset(f2)|; }
    if Build(f1).Ok? {
      AscendingUnique(Build(f1).value.entries, Build(f2).value.entries);
    }
  }

  // ---------------------------------------------------------------------------
  // The address space

  lemma PrefixCons(es: seq<Entry>, j: nat)
    requires 0 < |es| && j < |es|
    ensures Prefix(es, j + 1) == |es[0].shard.content| + Prefix(es[1..], j)
  {
    assert es[..j + 1][1..] == es[1..][..j];
  }

  /** The walk stops at the shard whose range holds `start`. */
  lemma {:induction false} LocateOwner(es: seq<Entry>, start: int, len: int, j: nat)
    requires j < |es| && len + Prefix(es, j) <= start < len + Prefix(es, j + 1)
    ensures Locate(es, start, len) == Cursor(len + Prefix(es, j), es[j].ordinal)
  {
    PrefixCons(es, j);
    if j > 0 {
      PrefixCons(es, j - 1);
      LocateOwner(es[1..], start, len + |es[0].shard.content|, j - 1);
    }
  }

  /** Past the last shard the walk ends with the total and ordinal 0. */
  lemma {:induction false} LocatePastEnd(es: seq<Entry>, start: int, len: int)
    requires len + Total(es) <= start
    ensures Locate(es, start, len) == Cursor(len + Total(es), 0)
  {
    if |es| > 0 {
      LocatePastEnd(es[1..], start, len + |es[0].shard.content|);
    }
  }

  /** Each entry adds its size to the running address. */
  lemma PrefixStep(es: seq<Entry>, j: nat)
    requires j < |es|
    ensures Prefix(es, j + 1) == Prefix(es, j) + |es[j].shard.content|
    ensures Prefix(es, j + 1) <= Total(es)
  {
    assert es[..j + 1] == es[..j] + [es[j]];
    SpaceAppend(es[..j], [es[j]]);
    assert Total([es[j]]) == |es[j].shard.content| by { assert [es[j]][1..] == []; }
    assert es == es[..j + 1] + es[j + 1..];
    SpaceAppend(es[..j + 1], es[j + 1..]);
  }

  /** Entry `j` occupies `[Prefix(j), Prefix(j + 1))` of the address space. */
  lemma SpaceSlice(es: seq<Entry>, j: nat)
    requires j < |es|
    ensures Prefix(es, j) <= Prefix(es, j + 1) <= Total(es)
    ensures Space(es)[Prefix(es, j)..Prefix(es, j + 1)] == es[j].shard.content
  {
    PrefixStep(es, j);
    SpaceSplit(es, j);
    MiddleSlice(Space(es[..j]), es[j].shard.content, Space(es[j + 1..]));
  }

  lemma {:induction false} SpaceSplit(es: seq<Entry>, j: nat)
    requires j < |es|
    ensures Space(es) == Space(es[..j]) + es[j].shard.content + Space(es[j + 1..])
  {
    if j == 0 {
      assert es[..0] == [];
    } else {
      SpaceSplit(es[1..], j - 1);
      assert es[..j][0] == es[0] && es[..j][1..] == es[1..][..j - 1];
      assert es[1..][j..] == es[j + 1..];
    }
  }

  lemma MiddleSlice<T>(x: seq<T>, c: seq<T>, y: seq<T>)
    ensures (x + c + y)[|x|..|x| + |c|] == c
  {
  }

  /** In an ascending list, looking up an entry's ordinal finds that entry. */
  lemma {:induction false} LookupFinds(es: seq<Entry>, j: nat)
    requires Ascending(es) && j < |es|
    ensures Lookup(es, es[j].ordinal) == Some(es[j].shard)
  {
    if j > 0 {
      LookupFinds(es[1..], j - 1);
    }
  }

  /** A read that stays inside one shard returns exactly those bytes of the
      address space and reports that shard's ordinal. */
  lemma GetDataWithinShard(m: Manager, start: i64, length: i64, j: nat)
    requires Valid(m) && j < |m.entries|
    requires Prefix(m.entries, j) <= start < Prefix(m.entries, j + 1)
    requires 0 <= length <= MaxArrayLength && start + length <= Prefix(m.entries, j + 1)
    ensures start + length <= m.total
    ensures GetData(m, start, length) ==
      Ok((Space(m.entries)[start..start + length], m.entries[j].ordinal))
  {
    var es := m.entries;
    SpaceSlice(es, j);
    LocateOwner(es, start, 0, j);
    LookupFinds(es, j);
    var lo := Prefix(es, j);
    SubSlice(Space(es), lo, Prefix(es, j + 1), start - lo, start - lo + length);
  }

  lemma SubSlice<T>(s: seq<T>, lo: nat, hi: nat, a: nat, b: nat)
    requires lo <= hi <= |s| && a <= b <= hi - lo
    ensures s[lo..hi][a..b] == s[lo + a..lo + b]
  {
    var t := s[lo..hi];
    forall k | 0 <= k < b - a
      ensures t[a..b][k] == s[lo + a..lo + b][k]
    {
      assert t[a..b][k] == t[a + k] == s[lo + a + k];
    }
  }

  /** A read that starts in one shard and runs past its end is not stitched
      across shards: the owning shard rejects the length. */
  lemma GetDataCrossing(m: Manager, start: i64, length: i64, j: nat)
    requires Valid(m) && j < |m.entries|
    requires Prefix(m.entries, j) <= start < Prefix(m.entries, j + 1)
    requires Prefix(m.entries, j + 1) < start + length <= m.total
    ensures GetData(m, start, length) == Err(LengthOutOfRange)
  {
    var es := m.entries;
    SpaceSlice(es, j);
    LocateOwner(es, start, 0, j);
    LookupFinds(es, j);
  }

  /** `start == totalLength` with `length <= 0` passes both checks but
      selects no shard: the walk leaves the ordinal at 0 and the local offset
      at 0. An empty read then succeeds only when there is a shard numbered 0;
      a negative length is refused by that shard, or fails the lookup. */
  lemma GetDataAtEnd(m: Manager, length: i64)
    requires Valid(m) && m.total <= Int64Max
    ensures length == 0 ==>
      GetData(m, m.total, length) == (if HasOrdinal(m.entries, 0) then Ok(([], 0)) else Err(NoSuchShard))
    ensures length < 0 ==>
      GetData(m, m.total, length) == (if HasOrdinal(m.entries, 0) then Err(NegativeLength) else Err(NoSuchShard))
  {
    LocatePastEnd(m.entries, m.total, 0);
  }
}

=== FILE: shards.dfy ===
/** The data shards (`Package`) and the manager that presents them as one
    address space (`PackageManager`).

    A shard is the content of one `PackageNNN.DAT` file. The manager keeps
    the shards in a `SortedList` keyed by the number in the file name, so the
    address space is the shards' contents laid end to end in ascending
    ordinal order, whatever order the directory listed them in. */
module Shards {
  import opened Results
  import opened Bytes

  const Int64Max: int := 0x7FFF_FFFF_FFFF_FFFF

  /** The largest byte array the runtime will allocate. */
  const MaxArrayLength: int := 0x7FFF_FFC7

  /** One `Package`: its `Size` is the length of its content. */
  datatype Shard = Shard(content: seq<byte>)

  /** Why a read raised. */
  datatype ReadFault =
    | StartOutOfRange   // ArgumentOutOfRangeException("start")
    | LengthOutOfRange  // ArgumentOutOfRangeException("length")
    | NegativeLength    // `new byte[length]` with a negative length
    | TooLarge          // `new byte[length]` beyond the largest array
    | BeforeBegin       // `Seek` to a negative position
    | NoSuchShard       // `packages[packageId]` with an absent key

  /** `Package.GetData`: the two range checks, in order and with the sum
      computed in wrapping 64-bit arithmetic, then the allocation of a zeroed
      buffer, the seek and one read, which fills the buffer up to the end of
      the file. Only a sum that wraps past `Int64.MaxValue` gets past the
      second check with the end beyond the file; the bytes the read cannot
      supply then stay zero. */
  function Read(sh: Shard, start: i64, length: i64): (r: Result<seq<byte>, ReadFault>)
    requires |sh.content| <= Int64Max
    ensures r.Ok? <==>
      0 <= start <= |sh.content| && 0 <= length <= MaxArrayLength &&
      (start + length <= |sh.content| || start + length > Int64Max)
    ensures r.Ok? ==> |r.value| == length
    ensures r.Ok? && start + length <= |sh.content| ==> r.value == sh.content[start..start + length]
    ensures start > |sh.content| ==> r == Err(StartOutOfRange)
    ensures start <= |sh.content| && AddInt64(start, length) > |sh.content| ==> r == Err(LengthOutOfRange)
  {
    var c := sh.content;
    if start > |c| then Err(StartOutOfRange)
    else if AddInt64(start, length) > |c| then Err(LengthOutOfRange)
    else if length < 0 then Err(NegativeLength)
    else if length > MaxArrayLength then Err(TooLarge)
    else if start < 0 then Err(BeforeBegin)
    else if start + length <= |c| then Ok(c[start..start + length])
    else Ok(c[start..] + Zeros(start + length - |c|))
  }

  function Zeros(n: nat): (z: seq<byte>)
    ensures |z| == n && forall i :: 0 <= i < n ==> z[i] == 0
  {
    seq(n, i => 0)
  }

  // ---------------------------------------------------------------------------
  // The sorted list of shards

  /** One entry of the `SortedList<int, Package>`. */
  datatype Entry = Entry(ordinal: i32, shard: Shard)

  predicate Ascending(es: seq<Entry>)
  {
    forall i, j :: 0 <= i < j < |es| ==> es[i].ordinal < es[j].ordinal
  }

  predicate HasOrdinal(es: seq<Entry>, k: i32)
  {
    exists x :: x in es && x.ordinal == k
  }

  /** No ordinal occurs twice in a bag of entries. */
  predicate Distinct(b: multiset<Entry>)
  {
    forall x, y :: x in b && y in b && x.ordinal == y.ordinal ==> x == y && b[x] == 1
  }

  /** Sum of the shard sizes, in unbounded arithmetic. */
  function Total(es: seq<Entry>): nat
  {
    if |es| == 0 then 0 else |es[0].shard.content| + Total(es[1..])
  }

  /** The shards' contents laid end to end. */
  function Space(es: seq<Entry>): (s: seq<byte>)
    ensures |s| == Total(es)
  {
    if |es| == 0 then [] else es[0].shard.content + Space(es[1..])
  }

  /** Address of the first byte of entry `j`. */
  function Prefix(es: seq<Entry>, j: nat): nat
    requires j <= |es|
  {
    Total(es[..j])
  }

  /** `SortedList.Add`: keeps the list ascending and raises on a key it
      already holds (`None`). */
  function Insert(es: seq<Entry>, e: Entry): Option<seq<Entry>>
  {
    if |es| == 0 then Some([e])
    else if e.ordinal == es[0].ordinal then None
    else if e.ordinal < es[0].ordinal then Some([e] + es)
    else match Insert(es[1..], e)
      case None => None
      case Some(t) => Some([es[0]] + t)
  }

  /** The constructor's loop: adds the matching files in directory order and
      stops at the first ordinal seen twice. */
  function Collect(es: seq<Entry>, files: seq<Entry>): Result<seq<Entry>, i32>
    decreases |files|
  {
    if |files| == 0 then Ok(es)
    else match Insert(es, files[0])
      case None => Err(files[0].ordinal)
      case Some(t) => Collect(t, files[1..])
  }

  /** Why the constructor raised. */
  datatype BuildFault =
    | DuplicateOrdinal(ordinal: i32)  // `SortedList.Add` of a key already present
    | NoShards                        // FileNotFoundException
    | SizeOverflow                    // checked `Sum` past `Int64.MaxValue`

  /** A constructed manager: shards in ascending ordinal order and their
      total size, which fits the `long` it is kept in. */
  datatype Manager = Manager(entries: seq<Entry>, total: int)

  predicate Valid(m: Manager)
  {
    |m.entries| > 0 && Ascending(m.entries) && m.total == Total(m.entries) && m.total <= Int64Max
  }

  /** The `PackageManager` constructor, from the files whose names matched
      `Package(\d+)\.DAT`, each with the number its name carries. */
  function Build(files: seq<Entry>): (r: Result<Manager, BuildFault>)
    ensures r.Ok? ==> Valid(r.value)
  {
    match Collect([], files)
    case Err(k) => Err(DuplicateOrdinal(k))
    case Ok(es) =>
      CollectAscending([], files);
      if |es| == 0 then Err(NoShards)
      else if Total(es) > Int64Max then Err(SizeOverflow)
      else Ok(Manager(es, Total(es)))
  }

  /** `Add` raises exactly on an ordinal already present. */
  lemma {:induction false} InsertRejects(es: seq<Entry>, e: Entry)
    requires Ascending(es)
    ensures Insert(es, e).None? <==> HasOrdinal(es, e.ordinal)
  {
    if |es| > 0 {
      HasOrdinalCons(es, e.ordinal);
      if e.ordinal > es[0].ordinal {
        InsertRejects(es[1..], e);
        assert Ascending(es[1..]);
      } else if e.ordinal < es[0].ordinal {
        HeadBelowRest(es);
      }
    }
  }

  /** Otherwise it adds exactly the new entry. */
  lemma {:induction false} InsertAdds(es: seq<Entry>, e: Entry)
    requires Insert(es, e).Some?
    ensures multiset(Insert(es, e).value) == multiset(es) + multiset{e}
  {
    if |es| > 0 && e.ordinal > es[0].ordinal {
      InsertAdds(es[1..], e);
      assert es == [es[0]] + es[1..];
    }
  }

  /** And keeps the list ascending. */
  lemma {:induction false} InsertAscending(es: seq<Entry>, e: Entry)
    requires Ascending(es) && Insert(es, e).Some?
    ensures Ascending(Insert(es, e).value)
  {
    if |es| > 0 {
      if e.ordinal < es[0].ordinal {
        HeadBelowRest(es);
        ConsAscending(e, es);
      } else {
        InsertAscending(es[1..], e);
        InsertAdds(es[1..], e);
        var t := Insert(es[1..], e).value;
        HeadBelowRest(es);
        forall y | y in t ensures es[0].ordinal < y.ordinal {
          assert y in multiset(t);
        }
        ConsAscending(es[0], t);
      }
    }
  }

  lemma HasOrdinalCons(es: seq<Entry>, k: i32)
    requires |es| > 0
    ensures HasOrdinal(es, k) <==> es[0].ordinal == k || HasOrdinal(es[1..], k)
  {
    assert es == [es[0]] + es[1..];
  }

  /** In an ascending list the head is below everything after it. */
  lemma HeadBelowRest(es: seq<Entry>)
    requires |es| > 0 && Ascending(es)
    ensures forall y :: y in es[1..] ==> es[0].ordinal < y.ordinal
  {
    forall y | y in es[1..] ensures es[0].ordinal < y.ordinal {
      var i :| 0 <= i < |es[1..]| && es[1..][i] == y;
      assert es[i + 1] == y;
    }
  }

  lemma ConsAscending(x: Entry, t: seq<Entry>)
    requires Ascending(t) && forall y :: y in t ==> x.ordinal < y.ordinal
    ensures Ascending([x] + t)
  {
    var r := [x] + t;
    forall i, j | 0 <= i < j < |r| ensures r[i].ordinal < r[j].ordinal {
      assert r[j] == t[j - 1];
      if i > 0 {
        assert r[i] == t[i - 1];
      }
    }
  }

  lemma {:induction false} CollectAscending(es: seq<Entry>, files: seq<Entry>)
    requires Ascending(es)
    ensures Collect(es, files).Ok? ==>
      Ascending(Collect(es, files).value) &&
      multiset(Collect(es, files).value) == multiset(es) + multiset(files)
    decreases |files|
  {
    if |files| > 0 {
      if Insert(es, files[0]).Some? {
        InsertAscending(es, files[0]);
        InsertAdds(es, files[0]);
        var t := Insert(es, files[0]).value;
        CollectAscending(t, files[1..]);
        assert files == [files[0]] + files[1..];
      }
    }
  }

  /** `SortedList` lookup by key. */
  function Lookup(es: seq<Entry>, k: i32): (r: Option<Shard>)
    ensures r.Some? <==> HasOrdinal(es, k)
  {
    if |es| == 0 then None
    else if es[0].ordinal == k then Some(es[0].shard)
    else
      HasOrdinalCons(es, k);
      Lookup(es[1..], k)
  }

  // ---------------------------------------------------------------------------
  // Reading the address space

  /** Where the walk of `GetData` stopped: the address of the chosen shard's
      first byte and the chosen ordinal. */
  datatype Cursor = Cursor(base: int, ordinal: i32)

  /** The walk of `GetData`: adds sizes in ascending ordinal order and stops at
      the first shard whose end lies past `start`; when none does, the running
      sum is the total and the ordinal stays 0. */
  function Locate(es: seq<Entry>, start: int, len: int): (c: Cursor)
    ensures c.base == len || (len <= c.base <= start)
    ensures |es| > 0 && start < len ==> c == Cursor(len, es[0].ordinal)
    ensures len + Total(es) <= start ==> c == Cursor(len + Total(es), 0)
  {
    if |es| == 0 then Cursor(len, 0)
    else if len + |es[0].shard.content| > start then Cursor(len, es[0].ordinal)
    else Locate(es[1..], start, len + |es[0].shard.content|)
  }

  /** `PackageManager.GetData`: the range checks against the total, the walk,
      the lookup of the chosen ordinal, and the shard's own read at the local
      offset. The second component is the ordinal reported through `out
      package`. */
  function GetData(m: Manager, start: i64, length: i64): (r: Result<(seq<byte>, i32), ReadFault>)
    requires Valid(m)
    ensures start > m.total ==> r == Err(StartOutOfRange)
    ensures start <= m.total && AddInt64(start, length) > m.total ==> r == Err(LengthOutOfRange)
  {
    if start > m.total then Err(StartOutOfRange)
    else if AddInt64(start, length) > m.total then Err(LengthOutOfRange)
    else
      var c := Locate(m.entries, start, 0);
      match Lookup(m.entries, c.ordinal)
      case None => Err(NoSuchShard)
      case Some(sh) =>
        ContentFits(m.entries, c.ordinal);
        match Read(sh, start - c.base, length)
        case Err(e) => Err(e)
        case Ok(data) => Ok((data, c.ordinal))
  }

  /** Every shard is no larger than the total. */
  lemma {:induction false} ContentFits(es: seq<Entry>, k: i32)
    requires Lookup(es, k).Some?
    ensures |Lookup(es, k).value.content| <= Total(es)
  {
    if es[0].ordinal != k {
      ContentFits(es[1..], k);
    }
  }
}

=== FILE: sniffer.dfy ===
/** The content sniffer (`JX3FileTypeRecognizer`): decides a file extension
    for a decompressed buffer from its bytes alone.

    Phase 1 splits text from binary: a buffer with no zero byte is text in the
    platform's default encoding; a buffer with a zero byte is text only when it
    starts with a recognised byte-order mark. Phase 2 walks an ordered table of
    signature predicates, first match wins; a predicate that raises is caught
    and counts as no match. The byte-order-mark test in phase 1 is NOT guarded,
    so a short zero-containing buffer makes the whole call raise.

    The two tables are `Dictionary` initialisers in the original; they are
    taken here to enumerate in insertion order, which .NET does in practice for
    a dictionary that is never modified but does not promise. */
module Sniffer {
  import opened Results
  import opened Bytes
  import opened Seqs
  import opened Probes

  const DefaultBinaryExtension: string := "BIN"
  const DefaultTextExtension: string := "TXT"

  const TgaHeader: seq<byte> := [0x00, 0x00, 0x02, 0x00, 0x00, 0x00, 0x00, 0x00]
  const TtfHeader: seq<byte> := [0x5F, 0x0F, 0x3C, 0xF5]
  const CppContent: seq<string> := ["#include", "namespace"]
  const LuaContent: seq<string> := ["function", "end"]

  // ---------------------------------------------------------------------------
  // Collaborators that are not modelled

  /** Text encodings the recognizer can pick. */
  datatype Encoding = Default | Utf7 | Utf8 | Unicode | BigEndianUnicode | Utf32

  /** The library behaviour the recognizer relies on but which is not modelled:
      `Encoding.GetString`, the character set `String.Trim` removes, and the
      two compiled regular expressions `iniPattern` and `xmlPattern`. */
  datatype TextEnv = TextEnv(
    getString: (Encoding, seq<byte>) -> string,
    isWhiteSpace: char -> bool,
    iniPattern: string -> bool,
    xmlPattern: string -> bool)

  // ---------------------------------------------------------------------------
  // Bit helpers used by the MPEG frame-sync test

  /** Reverses the four bytes of a 32-bit value. */
  function SwitchEndian(value: bv32): (r: bv32)
    ensures r & 0xFF == value >> 24
    ensures (r >> 8) & 0xFF == (value >> 16) & 0xFF
    ensures (r >> 16) & 0xFF == (value >> 8) & 0xFF
    ensures r >> 24 == value & 0xFF
  {
    ((value & 0x0000_00FF) << 24) | ((value & 0x0000_FF00) << 8)
      | ((value & 0x00FF_0000) >> 8) | ((value & 0xFF00_0000) >> 24)
  }

  /** Every bit set in `mask` is set in `data`. */
  predicate IsMask(data: bv32, mask: bv32)
  {
    data & mask == mask
  }

  /** A byte as an 8-bit pattern. */
  function Octet(b: byte): bv8
  {
    b as bv8
  }

  /** The bit pattern `BitConverter.ToUInt32` reads from four bytes. */
  function UInt32Bits(b: seq<byte>): bv32
    requires |b| == 4
  {
    Compose(Octet(b[0]), Octet(b[1]), Octet(b[2]), Octet(b[3]))
  }

  lemma SwitchEndianInvolution(value: bv32)
    ensures SwitchEndian(SwitchEndian(value)) == value
  {
  }

  /** Byte-swapping a little-endian read gives the big-endian read. */
  lemma SwitchEndianReadsBigEndian(b: seq<byte>)
    requires |b| == 4
    ensures SwitchEndian(UInt32Bits(b)) == UInt32Bits(Reverse(b))
  {
    var r := Reverse(b);
    assert r[0] == b[3] && r[1] == b[2] && r[2] == b[1] && r[3] == b[0];
    SwapBytes(Octet(b[0]), Octet(b[1]), Octet(b[2]), Octet(b[3]));
  }

  /** Four octets, least significant first, as one 32-bit pattern. */
  function Compose(b0: bv8, b1: bv8, b2: bv8, b3: bv8): bv32
  {
    (b0 as bv32) | ((b1 as bv32) << 8) | ((b2 as bv32) << 16) | ((b3 as bv32) << 24)
  }

  lemma SwapBytes(b0: bv8, b1: bv8, b2: bv8, b3: bv8)
    ensures SwitchEndian(Compose(b0, b1, b2, b3)) == Compose(b3, b2, b1, b0)
  {
  }

  // ---------------------------------------------------------------------------
  // Phase 1: text or binary

  /** Result of `GetEncodingFromHeader`: an encoding, `null`, or an exception. */
  datatype Bom = Bom(encoding: Encoding) | NoBom | BomFault

  /** One `if (...) return enc;` line of `GetEncodingFromHeader`. */
  function BomLine(test: Verdict, enc: Encoding, otherwise: Bom): Bom
  {
    match test
    case Match => Bom(enc)
    case Fault => BomFault
    case NoMatch => otherwise
  }

  const Utf7Bom: seq<byte> := [0x2B, 0x2F, 0x76]
  const Utf8Bom: seq<byte> := [0xEF, 0xBB, 0xBF]
  const UnicodeBom: seq<byte> := [0xFF, 0xFE]
  const BigEndianUnicodeBom: seq<byte> := [0xFE, 0xFF]
  const Utf32Bom: seq<byte> := [0x00, 0x00, 0xFE, 0xFF]

  /** The byte-order mark of an encoding (none for the default one). */
  function Mark(e: Encoding): seq<byte>
  {
    match e
    case Default => []
    case Utf7 => Utf7Bom
    case Utf8 => Utf8Bom
    case Unicode => UnicodeBom
    case BigEndianUnicode => BigEndianUnicodeBom
    case Utf32 => Utf32Bom
  }

  /** A mark of at most four bytes is found in the header exactly when the
      buffer starts with it. */
  lemma BomPrefixOfHeader(d: seq<byte>, mark: seq<byte>)
    requires 0 < |mark| <= 4
    ensures Check(Run(mark, 0), Take(d, 4)) == Match <==> StartsWith(d, mark)
  {
    var bom := Take(d, 4);
    RunMatches(mark, 0, bom);
    if |mark| <= |bom| {
      assert bom[..|mark|] == d[..|mark|];
    }
  }

  /** The five tests on the header never raise once four bytes are there. */
  lemma HeaderInBounds(content: seq<byte>)
    ensures |content| >= 4 ==>
      var bom := Take(content, 4);
      Check(Run(Utf7Bom, 0), bom) != Fault && Check(Run(Utf8Bom, 0), bom) != Fault &&
      Check(Run(UnicodeBom, 0), bom) != Fault && Check(Run(BigEndianUnicodeBom, 0), bom) != Fault &&
      Check(Run(Utf32Bom, 0), bom) != Fault
  {
    if |content| >= 4 {
      var bom := Take(content, 4);
      RunInBounds(Utf7Bom, 0, bom);
      RunInBounds(Utf8Bom, 0, bom);
      RunInBounds(UnicodeBom, 0, bom);
      RunInBounds(BigEndianUnicodeBom, 0, bom);
      RunInBounds(Utf32Bom, 0, bom);
    }
  }

  /** `GetEncodingFromHeader`: five sequential unguarded tests on the first
      (up to) four bytes. An encoding is only reported when the buffer starts
      with its mark; with four bytes present the call never raises and finds
      no encoding exactly when no mark is there. */
  function EncodingFromHeader(content: seq<byte>): (r: Bom)
    ensures r.Bom? ==> r.encoding != Default && StartsWith(content, Mark(r.encoding))
    ensures |content| >= 4 ==> r != BomFault
    ensures |content| >= 4 ==> (r == NoBom <==> !HasBomPrefix(content))
  {
    BomPrefixOfHeader(content, Utf7Bom);
    BomPrefixOfHeader(content, Utf8Bom);
    BomPrefixOfHeader(content, UnicodeBom);
    BomPrefixOfHeader(content, BigEndianUnicodeBom);
    BomPrefixOfHeader(content, Utf32Bom);
    HeaderInBounds(content);
    var bom := Take(content, 4);
    BomLine(Check(Run(Utf7Bom, 0), bom), Utf7,
    BomLine(Check(Run(Utf8Bom, 0), bom), Utf8,
    BomLine(Check(Run(UnicodeBom, 0), bom), Unicode,
    BomLine(Check(Run(BigEndianUnicodeBom, 0), bom), BigEndianUnicode,
    BomLine(Check(Run(Utf32Bom, 0), bom), Utf32,
    NoBom)))))
  }

  /** Outcome of `IsPlainText`: text in an encoding, binary, or an exception
      that escapes `GetExtension`. */
  datatype TextDecision = PlainText(encoding: Encoding) | Binary | HeaderFault

  function IsPlainText(content: seq<byte>): (r: TextDecision)
    ensures 0 !in content ==> r == PlainText(Default)
    ensures 0 in content ==> r != PlainText(Default)
  {
    if 0 !in content then
      PlainText(Default)
    else
      match EncodingFromHeader(content)
      case Bom(e) => PlainText(e)
      case NoBom => Binary
      case BomFault => HeaderFault
  }

  /** The buffer starts with one of the byte-order marks the header test knows. */
  predicate HasBomPrefix(d: seq<byte>)
  {
    StartsWith(d, Utf7Bom) || StartsWith(d, Utf8Bom) || StartsWith(d, UnicodeBom)
      || StartsWith(d, BigEndianUnicodeBom) || StartsWith(d, Utf32Bom)
  }

  // ---------------------------------------------------------------------------
  // Phase 2b: binary signatures

  // Each predicate below compares bytes left to right with `&&`, so it raises
  // exactly when the buffer ends before a byte it still has to read; the
  // contracts say both when it matches and when it raises.

  const Id3: seq<byte> := [0x49, 0x44, 0x33]             // "ID3"
  const OggMagic: seq<byte> := [0x4F, 0x67, 0x67, 0x53]  // "OggS"
  const Riff: seq<byte> := [0x52, 0x49, 0x46, 0x46]      // "RIFF"
  const WaveTag: seq<byte> := [0x57, 0x41, 0x56, 0x45]   // "WAVE"
  const FsbMagic: seq<byte> := [0x46, 0x53, 0x42, 0x35]  // "FSB5"
  const FtypTag: seq<byte> := [0x66, 0x74, 0x79, 0x70]   // "ftyp"
  const AviTag: seq<byte> := [0x41, 0x56, 0x49, 0x20]    // "AVI "
  const PngMagic: seq<byte> := [0x89, 0x50, 0x4E, 0x47]  // 0x89 "PNG"
  const DdsMagic: seq<byte> := [0x44, 0x44, 0x53, 0x20]  // "DDS "
  const PsdMagic: seq<byte> := [0x38, 0x42, 0x50, 0x53]  // "8BPS"
  const IffMagic: seq<byte> := [0x46, 0x4F, 0x52, 0x34]  // "FOR4"
  const CimgTag: seq<byte> := [0x43, 0x49, 0x4D, 0x47]   // "CIMG"
  const CurMagic: seq<byte> := [0x00, 0x00, 0x02, 0x00]
  const AconTag: seq<byte> := [0x41, 0x43, 0x4F, 0x4E]   // "ACON"
  const IcoMagic: seq<byte> := [0x00, 0x00, 0x01, 0x00]
  const RarMagic: seq<byte> := [0x52, 0x61, 0x72, 0x21]  // "Rar!"
  const ZipMagic: seq<byte> := [0x50, 0x4B, 0x03, 0x04]  // "PK" 03 04

  /** `d` ends inside `m` and agrees with it as far as it goes. */
  predicate Truncated<T(==)>(d: seq<T>, m: seq<T>)
  {
    |d| < |m| && d == m[..|d|]
  }

  /** `head` at offset 0 and `tag` at offset 8, as the RIFF-style tests read them. */
  predicate Tagged(d: seq<byte>, head: seq<byte>, tag: seq<byte>)
  {
    StartsWith(d, head) && OccursAt(d, tag, 8)
  }

  /** A RIFF-style test raises: the buffer ends inside `head`, or holds all
      of `head` but ends before the end of `tag`, agreeing with it so far. */
  predicate TaggedTruncated(d: seq<byte>, head: seq<byte>, tag: seq<byte>)
  {
    Truncated(d, head) ||
    (StartsWith(d, head) && |d| < 8 + |tag| && (|d| >= 8 ==> d[8..] == tag[..|d| - 8]))
  }

  /** A magic number compared from offset 0. */
  lemma MagicSpec<T>(m: seq<T>, d: seq<T>)
    requires |m| > 0
    ensures Check(Run(m, 0), d) == Match <==> StartsWith(d, m)
    ensures Check(Run(m, 0), d) == Fault <==> Truncated(d, m)
  {
    RunMatches(m, 0, d);
    RunFault(m, 0, d);
  }

  /** A four-byte head at offset 0 and a tag at offset 8, joined by `&&`. */
  lemma TaggedSpec(head: seq<byte>, tag: seq<byte>, d: seq<byte>)
    requires |head| == 4 && |tag| > 0
    ensures Check(Run(head, 0) + Run(tag, 8), d) == Match <==> Tagged(d, head, tag)
    ensures Check(Run(head, 0) + Run(tag, 8), d) == Fault <==> TaggedTruncated(d, head, tag)
  {
    CheckAppend(Run(head, 0), Run(tag, 8), d);
    MagicSpec(head, d);
    OffsetSpec(tag, 8, d);
  }

  /** A run compared from offset `at`: it raises when the buffer ends before
      `at`, or inside the run while agreeing with it. */
  lemma OffsetSpec(m: seq<byte>, at: nat, d: seq<byte>)
    requires |m| > 0
    ensures Check(Run(m, at), d) == Match <==> OccursAt(d, m, at)
    ensures Check(Run(m, at), d) == Fault <==> |d| < at + |m| && (|d| >= at ==> d[at..] == m[..|d| - at])
  {
    RunMatches(m, at, d);
    if |d| >= at {
      RunFault(m, at, d);
    } else {
      assert !InBounds(Run(m, at)[0], d);
    }
  }

  /** The ID3v1 test: 'T', 'A', 'G' at Length-128, Length-129, Length-130, in
      the order the predicate reads them. */
  const TagProbes: seq<Probe<byte>> := [Probe(Tail(0x80), 0x54), Probe(Tail(0x81), 0x41), Probe(Tail(0x82), 0x47)]

  /** The buffer carries an ID3v1 tag where the predicate looks for one. */
  predicate TagTrailer(d: seq<byte>)
  {
    |d| >= 0x82 && d[|d| - 0x80] == 0x54 && d[|d| - 0x81] == 0x41 && d[|d| - 0x82] == 0x47
  }

  /** The ID3v1 test reads a negative index below 128 bytes and never raises
      from 130 bytes on. */
  lemma TagProbesSpec(d: seq<byte>)
    ensures |d| < 0x80 ==> Check(TagProbes, d) == Fault
    ensures |d| >= 0x82 ==> Check(TagProbes, d) != Fault && (Check(TagProbes, d) == Match <==> TagTrailer(d))
    ensures |d| == 0x80 ==> Check(TagProbes, d) != Match && (Check(TagProbes, d) == Fault <==> d[0] == 0x54)
    ensures |d| == 0x81 ==> Check(TagProbes, d) != Match && (Check(TagProbes, d) == Fault <==> d[1] == 0x54 && d[0] == 0x41)
  {
    if |d| < 0x80 {
      assert !InBounds(TagProbes[0], d);
    } else if |d| == 0x80 {
      assert InBounds(TagProbes[0], d) && d[IndexOf(TagProbes[0].at, |d|)] == d[0];
      assert Check(TagProbes[1..], d) == Fault by {
        assert !InBounds(TagProbes[1..][0], d);
      }
    } else if |d| == 0x81 {
      assert InBounds(TagProbes[0], d) && d[IndexOf(TagProbes[0].at, |d|)] == d[1];
      assert TagProbes[1..][0] == TagProbes[1] && InBounds(TagProbes[1], d) && d[IndexOf(TagProbes[1].at, |d|)] == d[0];
      assert Check(TagProbes[1..][1..], d) == Fault by {
        assert !InBounds(TagProbes[1..][1..][0], d);
      }
    } else {
      assert InBounds(TagProbes[0], d) && InBounds(TagProbes[1], d) && InBounds(TagProbes[2], d);
      CheckMatch(TagProbes, d);
      CheckFault(TagProbes, d);
    }
  }

  /** Below 128 bytes only an "ID3" prefix keeps the predicate from raising;
      at 128 and 129 bytes the tag test raises once its first letters agree;
      from 130 bytes on it never raises and matches on either tag or on the
      frame-sync test. */
  function IsMp3(d: seq<byte>): (v: Verdict)
    ensures |d| < 0x80 ==> v != NoMatch && (v == Match <==> StartsWith(d, Id3))
    ensures |d| >= 0x82 ==> v != Fault
    ensures |d| >= 0x82 ==> (v == Match <==> StartsWith(d, Id3) || TagTrailer(d) || FrameSync(d) == Match)
    ensures |d| == 0x80 ==> (v == Fault <==> !StartsWith(d, Id3) && d[0] == 0x54)
    ensures |d| == 0x81 ==> (v == Fault <==> !StartsWith(d, Id3) && d[1] == 0x54 && d[0] == 0x41)
    ensures 0x80 <= |d| < 0x82 && v != Fault ==> (v == Match <==> StartsWith(d, Id3) || FrameSync(d) == Match)
  {
    MagicSpec(Id3, d);
    TagProbesSpec(d);
    Or(Check(Run(Id3, 0), d),     // "ID3" at the start
    Or(Check(TagProbes, d),       // the ID3v1 test at the end
       FrameSync(d)))
  }

  /** The raw-MPEG test: sync bits, MPEG-1 bits and layer bit of the big-endian
      first word. `BitConverter` raises when fewer than four bytes exist. */
  function FrameSync(d: seq<byte>): (v: Verdict)
    ensures v == Fault <==> |d| < 4
  {
    var word := Take(d, 4);
    if |word| < 4 then
      Fault
    else
      var head := SwitchEndian(UInt32Bits(word));
      FromBool(IsMask(head, 0xFFE0_0000) && IsMask(head, 0x1A_0000) && IsMask(head, 0x2_0000))
  }

  function IsOgg(d: seq<byte>): (v: Verdict)
    ensures v == Match <==> StartsWith(d, OggMagic)
    ensures v == Fault <==> Truncated(d, OggMagic)
  {
    MagicSpec(OggMagic, d);
    Check(Run(OggMagic, 0), d)
  }

  function IsWav(d: seq<byte>): (v: Verdict)
    ensures v == Match <==> Tagged(d, Riff, WaveTag)
    ensures v == Fault <==> TaggedTruncated(d, Riff, WaveTag)
  {
    TaggedSpec(Riff, WaveTag, d);
    Check(Run(Riff, 0) + Run(WaveTag, 8), d)
  }

  function IsFsb(d: seq<byte>): (v: Verdict)
    ensures v == Match <==> StartsWith(d, FsbMagic)
    ensures v == Fault <==> Truncated(d, FsbMagic)
  {
    MagicSpec(FsbMagic, d);
    Check(Run(FsbMagic, 0), d)
  }

  /** Reads nothing before offset 4, so every buffer of up to four bytes raises. */
  function IsMp4(d: seq<byte>): (v: Verdict)
    ensures v == Match <==> OccursAt(d, FtypTag, 4)
    ensures v == Fault <==> |d| < 8 && (|d| >= 4 ==> d[4..] == FtypTag[..|d| - 4])
  {
    OffsetSpec(FtypTag, 4, d);
    Check(Run(FtypTag, 4), d)
  }

  function IsAvi(d: seq<byte>): (v: Verdict)
    ensures v == Match <==> Tagged(d, Riff, AviTag)
    ensures v == Fault <==> TaggedTruncated(d, Riff, AviTag)
  {
    TaggedSpec(Riff, AviTag, d);
    Check(Run(Riff, 0) + Run(AviTag, 8), d)
  }

  function IsPng(d: seq<byte>): (v: Verdict)
    ensures v == Match <==> StartsWith(d, PngMagic)
    ensures v == Fault <==> Truncated(d, PngMagic)
  {
    MagicSpec(PngMagic, d);
    Check(Run(PngMagic, 0), d)
  }

  const JpegProbes: seq<Probe<byte>> :=
    [Probe(Head(0), 0xFF), Probe(Head(1), 0xD8), Probe(Tail(2), 0xFF), Probe(Tail(1), 0xD9)]

  lemma JpegSpec(d: seq<byte>)
    ensures Check(JpegProbes, d) == Match <==>
      |d| >= 2 && d[0] == 0xFF && d[1] == 0xD8 && d[|d| - 2] == 0xFF && d[|d| - 1] == 0xD9
    ensures Check(JpegProbes, d) == Fault <==> |d| == 0 || (|d| == 1 && d[0] == 0xFF)
  {
    var ps := JpegProbes;
    assert ps[1..][1..][1..][1..] == [];
    if |d| >= 2 {
      assert InBounds(ps[0], d) && InBounds(ps[1], d) && InBounds(ps[2], d) && InBounds(ps[3], d);
      CheckMatch(ps, d);
      CheckFault(ps, d);
    } else if |d| == 1 {
      assert InBounds(ps[0], d) && !InBounds(ps[1], d);
    }
  }

  /** FF D8 at the start and FF D9 at the end; the two pairs may overlap. */
  function IsJpeg(d: seq<byte>): (v: Verdict)
    ensures v == Match <==> |d| >= 2 && d[0] == 0xFF && d[1] == 0xD8 && d[|d| - 2] == 0xFF && d[|d| - 1] == 0xD9
    ensures v == Fault <==> |d| == 0 || (|d| == 1 && d[0] == 0xFF)
  {
    JpegSpec(d);
    Check(JpegProbes, d)
  }

  /** "BM" and a little-endian `int` at offset 2 equal to the buffer length. */
  function IsBmp(d: seq<byte>): Verdict
  {
    And(Check(Run([0x42, 0x4D], 0), d),
        var field := Take(Skip(d, 2), 4);
        if |field| < 4 then Fault else FromBool(ReadInt32(field) == |d|))
  }

  function IsTga(d: seq<byte>): (v: Verdict)
    ensures v == Match <==> StartsWith(d, TgaHeader)
    ensures v == Fault <==> Truncated(d, TgaHeader)
  {
    MagicSpec(TgaHeader, d);
    Check(Run(TgaHeader, 0), d)
  }

  function IsDds(d: seq<byte>): (v: Verdict)
    ensures v == Match <==> StartsWith(d, DdsMagic)
    ensures v == Fault <==> Truncated(d, DdsMagic)
  {
    MagicSpec(DdsMagic, d);
    Check(Run(DdsMagic, 0), d)
  }

  function IsPsd(d: seq<byte>): (v: Verdict)
    ensures v == Match <==> StartsWith(d, PsdMagic)
    ensures v == Fault <==> Truncated(d, PsdMagic)
  {
    MagicSpec(PsdMagic, d);
    Check(Run(PsdMagic, 0), d)
  }

  function IsIff(d: seq<byte>): (v: Verdict)
    ensures v == Match <==> Tagged(d, IffMagic, CimgTag)
    ensures v == Fault <==> TaggedTruncated(d, IffMagic, CimgTag)
  {
    TaggedSpec(IffMagic, CimgTag, d);
    Check(Run(IffMagic, 0) + Run(CimgTag, 8), d)
  }

  /** Shares its four bytes with the TGA header, so it must be tried after TGA. */
  function IsCur(d: seq<byte>): (v: Verdict)
    ensures v == Match <==> StartsWith(d, CurMagic)
    ensures v == Fault <==> Truncated(d, CurMagic)
  {
    MagicSpec(CurMagic, d);
    Check(Run(CurMagic, 0), d)
  }

  function IsAni(d: seq<byte>): (v: Verdict)
    ensures v == Match <==> Tagged(d, Riff, AconTag)
    ensures v == Fault <==> TaggedTruncated(d, Riff, AconTag)
  {
    TaggedSpec(Riff, AconTag, d);
    Check(Run(Riff, 0) + Run(AconTag, 8), d)
  }

  function IsIco(d: seq<byte>): (v: Verdict)
    ensures v == Match <==> StartsWith(d, IcoMagic)
    ensures v == Fault <==> Truncated(d, IcoMagic)
  {
    MagicSpec(IcoMagic, d);
    Check(Run(IcoMagic, 0), d)
  }

  function IsRar(d: seq<byte>): (v: Verdict)
    ensures v == Match <==> StartsWith(d, RarMagic)
    ensures v == Fault <==> Truncated(d, RarMagic)
  {
    MagicSpec(RarMagic, d);
    Check(Run(RarMagic, 0), d)
  }

  function IsZip(d: seq<byte>): (v: Verdict)
    ensures v == Match <==> StartsWith(d, ZipMagic)
    ensures v == Fault <==> Truncated(d, ZipMagic)
  {
    MagicSpec(ZipMagic, d);
    Check(Run(ZipMagic, 0), d)
  }

  /** `Skip(264).Take(4).SequenceEqual(ttfHeader)`: clamps, so never raises. */
  function IsTtf(d: seq<byte>): Verdict
  {
    FromBool(Take(Skip(d, 264), 4) == TtfHeader)
  }

  datatype BinaryFormat =
    Ani | Avi | Bmp | Dds | Fsb | Ico | Iff | Jpeg | Mp3 | Mp4 | Ogg | Png | Psd | Rar | Tga | Cur | Ttf | Wav | Zip

  /** Position of a format in the `binaryFormats` initialiser, which is the
      order a `foreach` over the dictionary visits it. */
  function BinaryRank(f: BinaryFormat): nat
  {
    match f
    case Ani => 0 case Avi => 1 case Bmp => 2 case Dds => 3 case Fsb => 4
    case Ico => 5 case Iff => 6 case Jpeg => 7 case Mp3 => 8 case Mp4 => 9
    case Ogg => 10 case Png => 11 case Psd => 12 case Rar => 13 case Tga => 14
    case Cur => 15 case Ttf => 16 case Wav => 17 case Zip => 18
  }

  function BinaryKey(f: BinaryFormat): (key: string)
    ensures |key| >= 3
  {
    match f
    case Ani => "ANI" case Avi => "AVI" case Bmp => "BMP" case Dds => "DDS"
    case Fsb => "FSB" case Ico => "ICO" case Iff => "IFF" case Jpeg => "JPEG"
    case Mp3 => "MP3" case Mp4 => "MP4" case Ogg => "OGG" case Png => "PNG"
    case Psd => "PSD" case Rar => "RAR" case Tga => "TGA" case Cur => "CUR"
    case Ttf => "TTF" case Wav => "WAV" case Zip => "ZIP"
  }

  /** What each predicate of the binary table answers on one buffer. */
  datatype BinaryVerdicts = BinaryVerdicts(
    ani: Verdict, avi: Verdict, bmp: Verdict, dds: Verdict, fsb: Verdict, ico: Verdict, iff: Verdict,
    jpeg: Verdict, mp3: Verdict, mp4: Verdict, ogg: Verdict, png: Verdict, psd: Verdict, rar: Verdict,
    tga: Verdict, cur: Verdict, ttf: Verdict, wav: Verdict, zip: Verdict)

  function BinaryVerdictsOf(d: seq<byte>): BinaryVerdicts
  {
    BinaryVerdicts(IsAni(d), IsAvi(d), IsBmp(d), IsDds(d), IsFsb(d), IsIco(d), IsIff(d),
                   IsJpeg(d), IsMp3(d), IsMp4(d), IsOgg(d), IsPng(d), IsPsd(d), IsRar(d),
                   IsTga(d), IsCur(d), IsTtf(d), IsWav(d), IsZip(d))
  }

  /** The answer stored for one format. */
  function BinaryVerdict(v: BinaryVerdicts, f: BinaryFormat): Verdict
  {
    match f
    case Ani => v.ani case Avi => v.avi case Bmp => v.bmp case Dds => v.dds
    case Fsb => v.fsb case Ico => v.ico case Iff => v.iff case Jpeg => v.jpeg
    case Mp3 => v.mp3 case Mp4 => v.mp4 case Ogg => v.ogg case Png => v.png
    case Psd => v.psd case Rar => v.rar case Tga => v.tga case Cur => v.cur
    case Ttf => v.ttf case Wav => v.wav case Zip => v.zip
  }

  /** The predicate stored under a format's key, applied to a buffer. */
  function EvalBinary(f: BinaryFormat, d: seq<byte>): Verdict
  {
    BinaryVerdict(BinaryVerdictsOf(d), f)
  }

  /** The loop over `binaryFormats`: the first format, in initialiser order,
      whose predicate returned true; a predicate that raised is passed over as
      one that returned false. `SnifferProperties.PickBinaryIsFirstMatch`
      states this against `BinaryRank`. */
  function PickBinary(v: BinaryVerdicts): Option<BinaryFormat>
  {
    if v.ani == Match then Some(Ani)
    else if v.avi == Match then Some(Avi)
    else if v.bmp == Match then Some(Bmp)
    else if v.dds == Match then Some(Dds)
    else if v.fsb == Match then Some(Fsb)
    else if v.ico == Match then Some(Ico)
    else if v.iff == Match then Some(Iff)
    else if v.jpeg == Match then Some(Jpeg)
    else if v.mp3 == Match then Some(Mp3)
    else if v.mp4 == Match then Some(Mp4)
    else if v.ogg == Match then Some(Ogg)
    else if v.png == Match then Some(Png)
    else if v.psd == Match then Some(Psd)
    else if v.rar == Match then Some(Rar)
    else if v.tga == Match then Some(Tga)
    else if v.cur == Match then Some(Cur)
    else if v.ttf == Match then Some(Ttf)
    else if v.wav == Match then Some(Wav)
    else if v.zip == Match then Some(Zip)
    else None
  }

  function FirstBinary(d: seq<byte>): Option<BinaryFormat>
  {
    PickBinary(BinaryVerdictsOf(d))
  }

  /** The binary branch of `GetExtension`: the first matching format's key, or "BIN". */
  function ClassifyBinary(d: seq<byte>): (ext: string)
    ensures |ext| >= 3
  {
    match FirstBinary(d)
    case Some(f) => BinaryKey(f)
    case None => DefaultBinaryExtension
  }

  // ---------------------------------------------------------------------------
  // Phase 2a: text signatures

  /** Number of whitespace characters at the start of `s`. */
  function LeadingWhite(isWhite: char -> bool, s: string): (n: nat)
    ensures n <= |s|
    ensures forall i :: 0 <= i < n ==> isWhite(s[i])
    ensures n < |s| ==> !isWhite(s[n])
  {
    if |s| > 0 && isWhite(s[0]) then 1 + LeadingWhite(isWhite, s[1..]) else 0
  }

  /** Number of whitespace characters at the end of `s`. */
  function TrailingWhite(isWhite: char -> bool, s: string): (n: nat)
    ensures n <= |s|
    ensures forall i :: |s| - n <= i < |s| ==> isWhite(s[i])
    ensures n < |s| ==> !isWhite(s[|s| - 1 - n])
  {
    if |s| > 0 && isWhite(s[|s| - 1]) then 1 + TrailingWhite(isWhite, s[..|s| - 1]) else 0
  }

  /** `String.Trim()`: removes whitespace from both ends. What is left starts
      at the first non-white character and everything cut off is white. */
  function Trim(isWhite: char -> bool, s: string): (r: string)
    ensures |r| == 0 || (!isWhite(r[0]) && !isWhite(r[|r| - 1]))
    ensures OccursAt(s, r, LeadingWhite(isWhite, s))
    ensures forall i :: 0 <= i < |s| && !(LeadingWhite(isWhite, s) <= i < LeadingWhite(isWhite, s) + |r|) ==>
                        isWhite(s[i])
  {
    var a := LeadingWhite(isWhite, s);
    var rest := s[a..];
    var b := TrailingWhite(isWhite, rest);
    rest[..|rest| - b]
  }

  /** Never raises; JSON is a trimmed text in braces or brackets that names
      no C++ marker. */
  function IsJson(env: TextEnv, s: string): (v: Verdict)
    ensures v != Fault
    ensures v == Match <==>
      (var t := Trim(env.isWhiteSpace, s);
       !ContainsAny(t, CppContent) &&
       ((StartsWith(t, "{") && EndsWith(t, "}")) || (StartsWith(t, "[") && EndsWith(t, "]"))))
  {
    var t := Trim(env.isWhiteSpace, s);
    if ContainsAny(t, CppContent) then NoMatch  // keeps C-like sources out of JSON
    else if StartsWith(t, "{") then FromBool(EndsWith(t, "}"))
    else if StartsWith(t, "[") then FromBool(EndsWith(t, "]"))
    else NoMatch
  }

  /** The unguarded prefix tests raise on a string that ends inside "<?xml"
      or "<!--"; otherwise either prefix, or the pattern, makes a match. */
  function IsXml(env: TextEnv, s: string): (v: Verdict)
    ensures v == Fault <==> Truncated(s, "<?xml") || Truncated(s, "<!--")
    ensures v == Match <==>
      (!Truncated(s, "<?xml") && !Truncated(s, "<!--") &&
       (StartsWith(s, "<?xml") || StartsWith(s, "<!--") || env.xmlPattern(s)))
  {
    MagicSpec("<?xml", s);
    MagicSpec("<!--", s);
    Or(Check(Run("<?xml", 0), s),
    Or(Check(Run("<!--", 0), s),
       FromBool(env.xmlPattern(s))))
  }

  /** Never raises: an empty string does not start with "[". */
  function IsIni(env: TextEnv, s: string): (v: Verdict)
    ensures v != Fault
    ensures v == Match <==> |s| > 0 && s[0] == '[' && env.iniPattern(s)
  {
    FromBool(StartsWith(s, "[") && env.iniPattern(s))
  }

  function IsCpp(s: string): (v: Verdict)
    ensures v != Fault
    ensures v == Match <==> exists i: nat :: OccursAt(s, "#include", i) || OccursAt(s, "namespace", i)
  {
    assert ContainsAny(s, CppContent) <==> Contains(s, CppContent[0]) || Contains(s, CppContent[1]);
    FromBool(ContainsAny(s, CppContent))
  }

  function IsLua(s: string): (v: Verdict)
    ensures v != Fault
    ensures v == Match <==> exists i: nat :: OccursAt(s, "function", i) || OccursAt(s, "end", i)
  {
    assert ContainsAny(s, LuaContent) <==> Contains(s, LuaContent[0]) || Contains(s, LuaContent[1]);
    FromBool(ContainsAny(s, LuaContent))
  }

  datatype TextFormat = Json | Xml | Ini | Cpp | Lua

  /** Position of a format in the `textFormats` initialiser. */
  function TextRank(f: TextFormat): nat
  {
    match f
    case Json => 0 case Xml => 1 case Ini => 2 case Cpp => 3 case Lua => 4
  }

  function TextKey(f: TextFormat): (key: string)
    ensures |key| >= 3
  {
    match f
    case Json => "JSON" case Xml => "XML" case Ini => "INI" case Cpp => "CPP" case Lua => "LUA"
  }

  /** What each predicate of the text table answers on one string. */
  datatype TextVerdicts = TextVerdicts(json: Verdict, xml: Verdict, ini: Verdict, cpp: Verdict, lua: Verdict)

  function TextVerdictsOf(env: TextEnv, s: string): TextVerdicts
  {
    TextVerdicts(IsJson(env, s), IsXml(env, s), IsIni(env, s), IsCpp(s), IsLua(s))
  }

  function TextVerdict(v: TextVerdicts, f: TextFormat): Verdict
  {
    match f
    case Json => v.json case Xml => v.xml case Ini => v.ini case Cpp => v.cpp case Lua => v.lua
  }

  function EvalText(env: TextEnv, f: TextFormat, s: string): Verdict
  {
    TextVerdict(TextVerdictsOf(env, s), f)
  }

  /** The loop over `textFormats`, as `PickBinary` is for `binaryFormats`. */
  function PickText(v: TextVerdicts): Option<TextFormat>
  {
    if v.json == Match then Some(Json)
    else if v.xml == Match then Some(Xml)
    else if v.ini == Match then Some(Ini)
    else if v.cpp == Match then Some(Cpp)
    else if v.lua == Match then Some(Lua)
    else None
  }

  function FirstText(env: TextEnv, s: string): Option<TextFormat>
  {
    PickText(TextVerdictsOf(env, s))
  }

  /** The text branch of `GetExtension` on the decoded string. */
  function ClassifyText(env: TextEnv, s: string): (ext: string)
    ensures |ext| >= 3
  {
    match FirstText(env, s)
    case Some(f) => TextKey(f)
    case None => DefaultTextExtension
  }

  // ---------------------------------------------------------------------------
  // The entry point

  /** `GetExtension`: `None` when the unguarded byte-order-mark test raises. */
  function GetExtension(env: TextEnv, d: seq<byte>): (r: Option<string>)
    ensures r.None? <==> IsPlainText(d) == HeaderFault
    ensures r.Some? ==> |r.value| > 0
    ensures 0 !in d ==> r == Some(ClassifyText(env, env.getString(Default, d)))
    ensures IsPlainText(d) == Binary ==> r == Some(ClassifyBinary(d))
    ensures IsPlainText(d).PlainText? ==> r == Some(ClassifyText(env, env.getString(IsPlainText(d).encoding, d)))
  {
    match IsPlainText(d)
    case HeaderFault => None
    case PlainText(enc) => Some(ClassifyText(env, env.getString(enc, d)))
    case Binary => Some(ClassifyBinary(d))
  }
}

=== FILE: sniffer_props.dfy ===
/** Properties of the content sniffer: the text/binary split, the ordering of
    the signature table, and the edge cases of individual predicates. */
module SnifferProperties {
  import opened Results
  import opened Bytes
  import opened Seqs
  import opened Probes
  import opened Sniffer

  // ---------------------------------------------------------------------------
  // MP3

  /** The three nested mask tests of the frame-sync check are one mask test. */
  lemma FrameSyncMask(head: bv32)
    ensures (IsMask(head, 0xFFE0_0000) && IsMask(head, 0x1A_0000) && IsMask(head, 0x2_0000))
            <==> IsMask(head, 0xFFFA_0000)
  {
  }

  /** In terms of bytes: the first byte is 0xFF and the second has the bits of 0xFA set. */
  lemma FrameSyncBytes(d: seq<byte>)
    requires |d| >= 4
    ensures FrameSync(d) == Match <==> Octet(d[0]) == 0xFF && Octet(d[1]) & 0xFA == 0xFA
    ensures FrameSync(d) != Fault
  {
    var word := Take(d, 4);
    assert word == d[..4];
    SwitchEndianReadsBigEndian(word);
    var r := Reverse(word);
    assert r[0] == d[3] && r[1] == d[2] && r[2] == d[1] && r[3] == d[0];
    FrameSyncMask(SwitchEndian(UInt32Bits(word)));
    TopBytes(Octet(d[3]), Octet(d[2]), Octet(d[1]), Octet(d[0]));
  }

  lemma TopBytes(b0: bv8, b1: bv8, b2: bv8, b3: bv8)
    ensures IsMask(Compose(b0, b1, b2, b3), 0xFFFA_0000) <==> b3 == 0xFF && b2 & 0xFA == 0xFA
  {
  }

  /** From 130 bytes on the MP3 test never raises, and matches on "ID3", on
      the ID3v1 tag, or on an MPEG-1 layer-3 frame header in bytes 0 and 1. */
  lemma Mp3LongBuffer(d: seq<byte>)
    requires |d| >= 0x82
    ensures IsMp3(d) != Fault
    ensures IsMp3(d) == Match <==>
      StartsWith(d, Id3) || TagTrailer(d) || (Octet(d[0]) == 0xFF && Octet(d[1]) & 0xFA == 0xFA)
  {
    FrameSyncBytes(d);
  }

  /** The ID3v1 test walks backwards from where the tag is stored: a buffer
      with "TAG" at the start of its last 128 bytes, as an ID3v1 tag is laid
      out, and no other MP3 sign is not reported as MP3. */
  lemma StoredTagIsMissed(d: seq<byte>)
    requires d == seq(72, _ => 0x01) + [0x54, 0x41, 0x47] + seq(125, _ => 0x01)
    ensures |d| == 200 && d[|d| - 0x80..|d| - 0x80 + 3] == [0x54, 0x41, 0x47]
    ensures IsMp3(d) != Match
  {
    assert d[|d| - 0x80..|d| - 0x80 + 3] == [0x54, 0x41, 0x47];
    assert d[0] == 0x01 && d[|d| - 0x81] == 0x01;
    Mp3LongBuffer(d);
  }

  // ---------------------------------------------------------------------------
  // BMP, TTF

  /** "BM", then the little-endian `int` at offset 2 equal to the length; raises
      only when "BM" is there (or partly there) but the size field is not. */
  lemma BmpSpec(d: seq<byte>)
    ensures IsBmp(d) == Match <==> |d| >= 6 && d[..2] == [0x42, 0x4D] && ReadInt32(d[2..6]) == |d|
    ensures IsBmp(d) == Fault <==> Truncated(d, [0x42, 0x4D]) || (StartsWith(d, [0x42, 0x4D]) && |d| < 6)
  {
    RunMatches([0x42, 0x4D], 0, d);
    MagicSpec([0x42, 0x4D], d);
    if |d| >= 6 {
      assert Take(Skip(d, 2), 4) == d[2..6];
    }
  }

  /** The TTF test clamps instead of indexing, so it never raises. */
  lemma TtfSpec(d: seq<byte>)
    ensures IsTtf(d) != Fault
    ensures IsTtf(d) == Match <==> |d| >= 268 && d[264..268] == TtfHeader
  {
    if |d| >= 268 {
      assert Take(Skip(d, 264), 4) == d[264..268];
    } else {
      assert |Take(Skip(d, 264), 4)| < 4;
    }
  }

  // ---------------------------------------------------------------------------
  // The signature tables

  /** The binary loop reports `f` exactly when `f`'s predicate returned true
      and every predicate before it in the initialiser did not. */
  lemma PickBinaryIsFirstMatch(v: BinaryVerdicts, f: BinaryFormat)
    ensures PickBinary(v) == Some(f) <==>
      BinaryVerdict(v, f) == Match && forall g :: BinaryRank(g) < BinaryRank(f) ==> BinaryVerdict(v, g) != Match
  {
    if PickBinary(v) == Some(f) {
      forall g | BinaryRank(g) < BinaryRank(f) ensures BinaryVerdict(v, g) != Match {
        PickBinaryBefore(v, g);
      }
      PickBinaryMatches(v);
    }
    if BinaryVerdict(v, f) == Match && forall g :: BinaryRank(g) < BinaryRank(f) ==> BinaryVerdict(v, g) != Match {
      PickBinaryNotLater(v, f);
      var h := PickBinary(v).value;
      PickBinaryMatches(v);
      BinaryRankInjective(h, f);
    }
  }

  /** It reports nothing exactly when no predicate returned true. */
  lemma PickBinaryNone(v: BinaryVerdicts)
    ensures PickBinary(v) == None <==> forall f :: BinaryVerdict(v, f) != Match
  {
    if PickBinary(v) == None {
      forall f ensures BinaryVerdict(v, f) != Match {
        if BinaryVerdict(v, f) == Match {
          PickBinaryNotLater(v, f);
        }
      }
    } else {
      PickBinaryMatches(v);
    }
  }

  lemma PickBinaryMatches(v: BinaryVerdicts)
    ensures PickBinary(v).Some? ==> BinaryVerdict(v, PickBinary(v).value) == Match
  {
  }

  lemma PickBinaryBefore(v: BinaryVerdicts, g: BinaryFormat)
    requires PickBinary(v).Some? && BinaryRank(g) < BinaryRank(PickBinary(v).value)
    ensures BinaryVerdict(v, g) != Match
  {
    match g { case Ani => case Avi => case Bmp => case Dds => case Fsb => case Ico => case Iff => case Jpeg => case Mp3 => case Mp4 => case Ogg => case Png => case Psd => case Rar => case Tga => case Cur => case Ttf => case Wav => case Zip => }
  }

  lemma PickBinaryNotLater(v: BinaryVerdicts, f: BinaryFormat)
    requires BinaryVerdict(v, f) == Match
    ensures PickBinary(v).Some? && BinaryRank(PickBinary(v).value) <= BinaryRank(f)
  {
    match f { case Ani => case Avi => case Bmp => case Dds => case Fsb => case Ico => case Iff => case Jpeg => case Mp3 => case Mp4 => case Ogg => case Png => case Psd => case Rar => case Tga => case Cur => case Ttf => case Wav => case Zip => }
  }

  lemma BinaryRankInjective(f: BinaryFormat, g: BinaryFormat)
    requires BinaryRank(f) == BinaryRank(g)
    ensures f == g
  {
    match f { case Ani => case Avi => case Bmp => case Dds => case Fsb => case Ico => case Iff => case Jpeg => case Mp3 => case Mp4 => case Ogg => case Png => case Psd => case Rar => case Tga => case Cur => case Ttf => case Wav => case Zip => }
  }

  /** The text loop reports `f` exactly when `f`'s predicate returned true
      and every predicate before it in the initialiser did not. */
  lemma PickTextIsFirstMatch(v: TextVerdicts, f: TextFormat)
    ensures PickText(v) == Some(f) <==>
      TextVerdict(v, f) == Match && forall g :: TextRank(g) < TextRank(f) ==> TextVerdict(v, g) != Match
  {
    if PickText(v) == Some(f) {
      forall g | TextRank(g) < TextRank(f) ensures TextVerdict(v, g) != Match {
        PickTextBefore(v, g);
      }
      PickTextMatches(v);
    }
    if TextVerdict(v, f) == Match && forall g :: TextRank(g) < TextRank(f) ==> TextVerdict(v, g) != Match {
      PickTextNotLater(v, f);
      var h := PickText(v).value;
      PickTextMatches(v);
      TextRankInjective(h, f);
    }
  }

  /** It reports nothing exactly when no predicate returned true. */
  lemma PickTextNone(v: TextVerdicts)
    ensures PickText(v) == None <==> forall f :: TextVerdict(v, f) != Match
  {
    if PickText(v) == None {
      forall f ensures TextVerdict(v, f) != Match {
        if TextVerdict(v, f) == Match {
          PickTextNotLater(v, f);
        }
      }
    } else {
      PickTextMatches(v);
    }
  }

  lemma PickTextMatches(v: TextVerdicts)
    ensures PickText(v).Some? ==> TextVerdict(v, PickText(v).value) == Match
  {
  }

  lemma PickTextBefore(v: TextVerdicts, g: TextFormat)
    requires PickText(v).Some? && TextRank(g) < TextRank(PickText(v).value)
    ensures TextVerdict(v, g) != Match
  {
    match g { case Json => case Xml => case Ini => case Cpp => case Lua => }
  }

  lemma PickTextNotLater(v: TextVerdicts, f: TextFormat)
    requires TextVerdict(v, f) == Match
    ensures PickText(v).Some? && TextRank(PickText(v).value) <= TextRank(f)
  {
    match f { case Json => case Xml => case Ini => case Cpp => case Lua => }
  }

  lemma TextRankInjective(f: TextFormat, g: TextFormat)
    requires TextRank(f) == TextRank(g)
    ensures f == g
  {
    match f { case Json => case Xml => case Ini => case Cpp => case Lua => }
  }

  // ---------------------------------------------------------------------------
  // TGA before CUR

  /** Every TGA header is also a CUR header, so TGA can only ever be reported
      because it comes first in the table. */
  lemma TgaImpliesCur(d: seq<byte>)
    requires IsTga(d) == Match
    ensures IsCur(d) == Match
  {
    assert d[..4] == d[..8][..4];
  }

  /** Phase 1 on a buffer that starts 00 00 02 00: binary. */
  lemma CurMagicIsBinary(d: seq<byte>)
    requires StartsWith(d, CurMagic)
    ensures IsPlainText(d) == Binary
  {
    assert d[0] == 0 && d[1] == 0 && d[2] == 2;
    assert 0 in d;
  }

  /** The MP3 test on a buffer that starts 00 00 02 00 and has no ID3v1 tag:
      "ID3" and frame sync need other first bytes; between 128 and 130 bytes
      the tag test stops at its first byte, which is one of the zeros. */
  lemma CurMagicIsNotMp3(d: seq<byte>)
    requires StartsWith(d, CurMagic) && !TagTrailer(d)
    ensures IsMp3(d) != Match
  {
    assert d[0] == 0;
    if 0x80 <= |d| < 0x82 {
      assert InBounds(TagProbes[0], d) && d[|d| - 0x80] == 0;
      assert Check(TagProbes, d) == NoMatch;
      assert Check(Run(Id3, 0), d) == NoMatch by {
        MissAt(Run(Id3, 0), d, 0);
        RunInBounds(Id3, 0, d);
      }
      FrameSyncBytes(d);
    } else if |d| >= 0x82 {
      FrameSyncBytes(d);
    }
  }

  /** On a buffer starting 00 00 02 00 with no "ftyp" at offset 4 and no
      ID3v1 tag, nothing before TGA in the table matches. */
  lemma NothingBeforeTga(d: seq<byte>)
    requires StartsWith(d, CurMagic) && !TagTrailer(d)
    requires !OccursAt(d, FtypTag, 4)
    ensures forall f :: BinaryRank(f) < BinaryRank(Tga) ==> EvalBinary(f, d) != Match
  {
    HeadFormatsMiss(d);
    CurMagicIsNotMp3(d);
    TailFormatsMiss(d);
    var v := BinaryVerdictsOf(d);
    forall f | BinaryRank(f) < BinaryRank(Tga)
      ensures EvalBinary(f, d) != Match
    {
      MissesBeforeTga(v, f);
    }
  }

  lemma MissesBeforeTga(v: BinaryVerdicts, f: BinaryFormat)
    requires v.ani != Match && v.avi != Match && v.bmp != Match && v.dds != Match && v.fsb != Match
    requires v.ico != Match && v.iff != Match && v.jpeg != Match && v.mp3 != Match && v.mp4 != Match
    requires v.ogg != Match && v.png != Match && v.psd != Match && v.rar != Match
    requires BinaryRank(f) < BinaryRank(Tga)
    ensures BinaryVerdict(v, f) != Match
  {
    match f { case Ani => case Avi => case Bmp => case Dds => case Fsb => case Ico => case Iff => case Jpeg => case Mp3 => case Mp4 => case Ogg => case Png => case Psd => case Rar => case Tga => case Cur => case Ttf => case Wav => case Zip => }
  }

  /** The formats before MP3 in the table all want a different first or
      third byte. */
  lemma HeadFormatsMiss(d: seq<byte>)
    requires StartsWith(d, CurMagic)
    ensures IsAni(d) != Match && IsAvi(d) != Match && IsBmp(d) != Match && IsDds(d) != Match
    ensures IsFsb(d) != Match && IsIco(d) != Match && IsIff(d) != Match && IsJpeg(d) != Match
  {
    assert d[0] == 0 && d[2] == 2;
    BmpSpec(d);
  }

  /** Between MP3 and TGA: MP4 wants "ftyp" at byte 4, the rest a different
      first byte. */
  lemma TailFormatsMiss(d: seq<byte>)
    requires StartsWith(d, CurMagic)
    requires !OccursAt(d, FtypTag, 4)
    ensures IsMp4(d) != Match && IsOgg(d) != Match && IsPng(d) != Match && IsPsd(d) != Match
    ensures IsRar(d) != Match
  {
    assert d[0] == 0;
  }

  /** A buffer that starts with the full TGA header and has no ID3v1 tag is
      reported as "TGA", although it also passes the CUR test. */
  lemma TgaBeforeCur(env: TextEnv, d: seq<byte>)
    requires StartsWith(d, TgaHeader) && !TagTrailer(d)
    ensures GetExtension(env, d) == Some("TGA")
  {
    TgaPicked(d);
    assert d[..4] == d[..8][..4];
    CurMagicIsBinary(d);
    Keys();
    BinaryNamed(env, d, Tga, "TGA");
  }

  lemma TgaPicked(d: seq<byte>)
    requires StartsWith(d, TgaHeader) && !TagTrailer(d)
    ensures FirstBinary(d) == Some(Tga)
  {
    assert d[..4] == d[..8][..4] && d[4] == 0;
    HeadFormatsMiss(d);
    CurMagicIsNotMp3(d);
    TailFormatsMiss(d);
  }

  /** A buffer starting 00 00 02 00 that does not complete the eight-byte TGA
      header, without "ftyp" at offset 4 and without an ID3v1 tag, is reported
      as "CUR": a TGA test that raises or misses is passed over. */
  lemma CurWhenTgaIncomplete(env: TextEnv, d: seq<byte>)
    requires StartsWith(d, CurMagic) && !TagTrailer(d)
    requires !StartsWith(d, TgaHeader)
    requires !OccursAt(d, FtypTag, 4)
    ensures GetExtension(env, d) == Some("CUR")
  {
    CurPicked(d);
    CurMagicIsBinary(d);
    Keys();
    BinaryNamed(env, d, Cur, "CUR");
  }

  lemma CurPicked(d: seq<byte>)
    requires StartsWith(d, CurMagic) && !TagTrailer(d)
    requires !StartsWith(d, TgaHeader)
    requires !OccursAt(d, FtypTag, 4)
    ensures FirstBinary(d) == Some(Cur)
  {
    HeadFormatsMiss(d);
    CurMagicIsNotMp3(d);
    TailFormatsMiss(d);
    if |d| >= 8 {
      assert d[..4] == d[..8][..4];
    }
  }

  /** Short of the full TGA header, a 00 00 02 00 buffer fails TGA (by a miss
      or by an exception) and passes CUR. */
  lemma TgaMissCurHit(d: seq<byte>)
    requires StartsWith(d, CurMagic)
    requires !StartsWith(d, TgaHeader)
    ensures IsTga(d) != Match && IsCur(d) == Match
  {
    if |d| >= 8 {
      assert d[..4] == d[..8][..4];
    }
  }

  /** Two incomplete TGA headers: the bare five-byte 00 00 02 00 00, where the
      TGA test raises, and 00 00 02 00 00 00 00 01, where it misses at byte 7. */
  lemma IncompleteTgaIsCur(env: TextEnv)
    ensures GetExtension(env, [0, 0, 2, 0, 0]) == Some("CUR")
    ensures GetExtension(env, [0, 0, 2, 0, 0, 0, 0, 1]) == Some("CUR")
  {
    var a: seq<byte> := [0, 0, 2, 0, 0];
    var b: seq<byte> := [0, 0, 2, 0, 0, 0, 0, 1];
    assert a[..4] == CurMagic && b[..4] == CurMagic;
    assert b[..8] != TgaHeader by { assert b[7] != TgaHeader[7]; }
    CurWhenTgaIncomplete(env, a);
    CurWhenTgaIncomplete(env, b);
  }

  /** An ID3v1 tag wins over a TGA or CUR header: such a buffer is named "MP3",
      because MP3 comes before both in the table. */
  lemma TaggedCurIsMp3(env: TextEnv, d: seq<byte>)
    requires StartsWith(d, CurMagic) && TagTrailer(d)
    ensures GetExtension(env, d) == Some("MP3")
  {
    Mp3Picked(d);
    CurMagicIsBinary(d);
    Keys();
    BinaryNamed(env, d, Mp3, "MP3");
  }

  lemma Mp3Picked(d: seq<byte>)
    requires StartsWith(d, CurMagic) && TagTrailer(d)
    ensures FirstBinary(d) == Some(Mp3)
  {
    HeadFormatsMiss(d);
  }

  /** "ftyp" at offset 4 wins over a TGA or CUR header without an ID3v1 tag:
      such a buffer is named "MP4", because MP4 comes before both in the table. */
  lemma FtypCurIsMp4(env: TextEnv, d: seq<byte>)
    requires StartsWith(d, CurMagic) && !TagTrailer(d) && OccursAt(d, FtypTag, 4)
    ensures GetExtension(env, d) == Some("MP4")
  {
    Mp4Picked(d);
    CurMagicIsBinary(d);
    Keys();
    BinaryNamed(env, d, Mp4, "MP4");
  }

  lemma Mp4Picked(d: seq<byte>)
    requires StartsWith(d, CurMagic) && !TagTrailer(d) && OccursAt(d, FtypTag, 4)
    ensures FirstBinary(d) == Some(Mp4)
  {
    HeadFormatsMiss(d);
    CurMagicIsNotMp3(d);
  }

  lemma Keys()
    ensures BinaryKey(Tga) == "TGA" && BinaryKey(Cur) == "CUR" && BinaryKey(Mp3) == "MP3"
    ensures BinaryKey(Mp4) == "MP4"
  {
  }

  /** A binary buffer is named after the first format that matched. */
  lemma BinaryNamed(env: TextEnv, d: seq<byte>, f: BinaryFormat, key: string)
    requires IsPlainText(d) == Binary && FirstBinary(d) == Some(f) && BinaryKey(f) == key
    ensures GetExtension(env, d) == Some(key)
  {
  }
}

=== FILE: trunk.dfy ===
/** The index file (`TrunkReader`): a header whose bytes 0x0C..0x10 hold a
    declared record count, then, from offset 0x200, fixed 20-byte locator
    records read one after another until fewer than 20 bytes are left. */
module TrunkIndex {
  import opened Results
  import opened Bytes

  const TotalLengthAt: nat := 0x0C
  const FirstRecordAt: nat := 0x200
  const RecordLength: nat := 20

  /** `TrunkAddress`: a record's token, its address in the shard space and
      its stored length. */
  datatype Locator = Locator(token: u64, offset: i64, length: i32)

  /** One 20-byte record: the token is bytes 0..8 reversed and then read
      little-endian, the offset and length are little-endian reads of bytes
      8..16 and 16..20. */
  function DecodeLocator(b: seq<byte>): (l: Locator)
    requires |b| == RecordLength
    ensures l.token == BeUint(b[..8])
  {
    LeOfReverseIsBe(b[..8]);
    Locator(ReadUInt64(Reverse(b[..8])), ReadInt64(b[8..16]), ReadInt32(b[16..20]))
  }

  function EncodeLocator(l: Locator): (b: seq<byte>)
    ensures |b| == RecordLength
  {
    Reverse(UInt64Bytes(l.token)) + Int64Bytes(l.offset) + Int32Bytes(l.length)
  }

  /** The reader: the index bytes, the stream position, and `TotalLength`. */
  datatype Reader = Reader(stream: seq<byte>, pos: nat, totalLength: u32)

  /** The constructor: seeks to 0x0C, reads `TotalLength` (which raises when
      the stream ends first, `None`), then seeks to the first record. Seeking
      past the end is allowed. */
  function Open(stream: seq<byte>): (r: Option<Reader>)
    ensures r.None? <==> |stream| < TotalLengthAt + 4
    ensures r.Some? ==> r.value.stream == stream && r.value.pos == FirstRecordAt
    ensures r.Some? ==> r.value.totalLength == ReadUInt32(stream[TotalLengthAt..TotalLengthAt + 4])
  {
    if |stream| < TotalLengthAt + 4 then None
    else Some(Reader(stream, FirstRecordAt, ReadUInt32(stream[TotalLengthAt..TotalLengthAt + 4])))
  }

  /** Result of `ReadNextResource`: a locator, or `EndOfStreamException`;
      either way with the reader as the read left it. */
  datatype Step = Next(loc: Locator, rest: Reader) | End(rest: Reader)

  /** Bytes a read at the current position can deliver. */
  function Available(r: Reader): nat
  {
    if r.pos < |r.stream| then |r.stream| - r.pos else 0
  }

  /** `ReadNextResource`: one `Stream.Read` of up to 20 bytes, which delivers
      what is left when that is less; the position moves by what was read
      even when the short read then signals the end. */
  function ReadNext(r: Reader): (s: Step)
    ensures s.rest.stream == r.stream && s.rest.totalLength == r.totalLength
    ensures s.Next? <==> r.pos + RecordLength <= |r.stream|
    ensures s.Next? ==>
      (s.rest.pos == r.pos + RecordLength && s.loc == DecodeLocator(r.stream[r.pos..r.pos + RecordLength]))
    ensures s.End? ==> s.rest.pos == (if r.pos < |r.stream| then |r.stream| else r.pos)
  {
    var n := if Available(r) < RecordLength then Available(r) else RecordLength;
    if n < RecordLength then End(r.(pos := r.pos + n))
    else Next(DecodeLocator(r.stream[r.pos..r.pos + RecordLength]), r.(pos := r.pos + RecordLength))
  }

  /** The locators a reader yields before the end is signalled: one per
      whole record left, however many bytes short the last read falls. */
  function Drain(r: Reader): (ls: seq<Locator>)
    ensures RecordLength * |ls| <= Available(r) < RecordLength * (|ls| + 1)
    decreases Available(r)
  {
    match ReadNext(r)
    case End(_) => []
    case Next(l, rest) => [l] + Drain(rest)
  }

  /** Number of whole records from `p` on. */
  function CountFrom(s: seq<byte>, p: nat): nat
  {
    if p <= |s| then (|s| - p) / RecordLength else 0
  }

  /** The whole records from `p` on, decoded; a trailing partial record is
      not part of it. */
  function RecordsFrom(s: seq<byte>, p: nat): (ls: seq<Locator>)
    ensures |ls| == CountFrom(s, p)
  {
    seq(CountFrom(s, p), k requires 0 <= k < CountFrom(s, p) =>
      DecodeLocator(s[p + RecordLength * k..p + RecordLength * k + RecordLength]))
  }

  /** The locators of an index file: one per whole record after the header,
      each carrying the big-endian value of its record's first eight bytes as
      its token. */
  function Locators(s: seq<byte>): (ls: seq<Locator>)
    ensures |ls| == CountFrom(s, FirstRecordAt)
    ensures forall k :: 0 <= k < |ls| ==>
      var at := FirstRecordAt + RecordLength * k;
      at + RecordLength <= |s| && ls[k].token == BeUint(s[at..at + 8])
  {
    var ls := RecordsFrom(s, FirstRecordAt);
    forall k | 0 <= k < |ls|
      ensures var at := FirstRecordAt + RecordLength * k;
        at + RecordLength <= |s| && ls[k].token == BeUint(s[at..at + 8])
    {
      var at := FirstRecordAt + RecordLength * k;
      assert at + RecordLength <= |s| by {
        assert k + 1 <= (|s| - FirstRecordAt) / RecordLength;
      }
      assert s[at..at + RecordLength][..8] == s[at..at + 8];
    }
    ls
  }
}

=== FILE: trunk_props.dfy ===
/** Properties of the index reader. */
module TrunkProperties {
  import opened Results
  import opened Bytes
  import opened TrunkIndex

  /** Decoding an encoded locator gives it back. */
  lemma DecodeEncode(l: Locator)
    ensures DecodeLocator(EncodeLocator(l)) == l
  {
    var b := EncodeLocator(l);
    var t := UInt64Bytes(l.token);
    assert b[..8] == Reverse(t) && b[8..16] == Int64Bytes(l.offset) && b[16..20] == Int32Bytes(l.length);
    assert Reverse(Reverse(t)) == t;
    UInt64RoundTrip(l.token);
    Int64RoundTrip(l.offset);
    Int32RoundTrip(l.length);
  }

  /** Every 20 bytes are the encoding of the locator they decode to. */
  lemma EncodeDecode(b: seq<byte>)
    requires |b| == RecordLength
    ensures EncodeLocator(DecodeLocator(b)) == b
  {
    var r := Reverse(b[..8]);
    UInt64BytesRoundTrip(r);
    Int64BytesRoundTrip(b[8..16]);
    Int32BytesRoundTrip(b[16..20]);
    assert Reverse(r) == b[..8];
    assert b == b[..8] + b[8..16] + b[16..20];
  }

  /** A reader yields exactly the whole records from its position on. */
  lemma {:induction false} DrainRecords(r: Reader)
    ensures Drain(r) == RecordsFrom(r.stream, r.pos)
    decreases Available(r)
  {
    var s, p := r.stream, r.pos;
    match ReadNext(r)
    case End(_) =>
    case Next(l, rest) =>
      DrainRecords(rest);
      RecordsStep(s, p);
  }

  /** The records from `p` are the one at `p` followed by those after it. */
  lemma RecordsStep(s: seq<byte>, p: nat)
    requires p + RecordLength <= |s|
    ensures RecordsFrom(s, p) ==
      [DecodeLocator(s[p..p + RecordLength])] + RecordsFrom(s, p + RecordLength)
  {
    var tail := RecordsFrom(s, p + RecordLength);
    var l := DecodeLocator(s[p..p + RecordLength]);
    assert CountFrom(s, p) == CountFrom(s, p + RecordLength) + 1;
    forall k | 0 <= k < CountFrom(s, p)
      ensures ([l] + tail)[k] == RecordsFrom(s, p)[k]
    {
      if k > 0 {
        assert p + RecordLength * k == (p + RecordLength) + RecordLength * (k - 1);
      }
    }
  }

  /** The reader opened on an index file yields its locators, one per whole
      20-byte record after offset 0x200: how many depends only on the file's
      length, never on the declared `TotalLength`. */
  lemma OpenYieldsLocators(s: seq<byte>)
    requires Open(s).Some?
    ensures Drain(Open(s).value) == Locators(s)
    ensures |Drain(Open(s).value)| == if |s| >= FirstRecordAt then (|s| - FirstRecordAt) / RecordLength else 0
  {
    DrainRecords(Open(s).value);
  }

  /** Once the end is signalled, every later read signals it again and the
      reader stays where it is. */
  lemma EndIsFinal(r: Reader)
    requires ReadNext(r).End?
    ensures ReadNext(ReadNext(r).rest) == End(ReadNext(r).rest)
  {
  }

  /** A trailing partial record is ignored: appending fewer than 20 bytes to
      an index file does not change its locators. */
  lemma PartialRecordIgnored(s: seq<byte>, junk: seq<byte>)
    requires |s| >= FirstRecordAt && (|s| - FirstRecordAt) % RecordLength == 0 && |junk| < RecordLength
    ensures Locators(s + junk) == Locators(s)
  {
    var n := CountFrom(s, FirstRecordAt);
    assert CountFrom(s + junk, FirstRecordAt) == n;
    forall k | 0 <= k < n
      ensures Locators(s + junk)[k] == Locators(s)[k]
    {
      var lo := FirstRecordAt + RecordLength * k;
      assert lo + RecordLength <= |s|;
      assert (s + junk)[lo..lo + RecordLength] == s[lo..lo + RecordLength];
    }
  }
}
